=== FILE: README.md ===
# Jetpack Connection Checker: the diagnostics decision logic in Dafny

This project models the decision logic of `JCC_Diagnostics`, the WordPress
plugin class that diagnoses a site's Jetpack connection. The model covers
four pieces and one helper:

- **The classification ladder** (`get_categorized_diagnostics`). It reads
  the state of the site once. It stops with a single failure when Jetpack
  is not installed, not active or not connected. Otherwise it appends
  findings to three ordered buckets (failures, issues, notices) in a fixed
  order, and routes the plugin conflicts last, by severity.
- **The status summary** (`get_jetpack_status_summary`). It picks the
  level by strict priority: failure, then issue, then success. It builds
  a headline, and a description whose count suffix is singular for
  exactly one.
- **The two API probes** (`test_rest_api`, `test_xmlrpc`). Each turns an
  HTTP outcome into a status label through an ordered chain of tests.
- **The plugin conflict scanner** (`check_plugin_conflicts`). It matches
  each lower-cased plugin name against a fixed table. The first matching
  entry wins, so each plugin raises at most one conflict.
- **The environment lines** of `check_connection_issues`, and the
  ladder's prefix parse of them.

Every host call becomes an input. The WordPress and Jetpack calls are the
fields of `Ladder.SiteState`. An HTTP round trip is a `Probes.HttpOutcome`:
a transport error, or a status code, reason phrase and body. The ladder
takes what it learns from the other pieces as `Ladder.Observations`: the
two probe verdicts, the environment lines and the conflicts.
`Ladder.Observe` makes those observations of a site, and
`Ladder.Categorize` runs the ladder over them. Both take the conflict
table as a parameter. With `Conflicts.SourceRules` they model the source
as written. With `Conflicts.KnownConflicts` they use the corrected table
order (see "Findings"). Most lemmas are stated over
`Ladder.CategorizeWith` and hold for any observations, so they hold for
either table.

Modules and the files that hold them:

- `Strings` (strings.dfy): `strpos`, `str_replace`, ASCII `strtolower`
  and `%d`.
- `Optional`, `Findings` and `Search` (findings.dfy): findings and
  buckets, and first-match search.
- `Probes` (probes.dfy): the two API probes.
- `Environment` (environment.dfy): the environment lines and their parse.
- `Conflicts` (conflicts.dfy): the conflict table and scanner.
- `ConflictOrder` (conflict_order.dfy): facts about the table order.
- `Ladder` (ladder.dfy): the classification ladder.
- `Summary` (summary.dfy): the status summary.

Three behaviours of the code are easy to misread. The model follows the
code in each:

- The parse removes *every* occurrence of "Warning: " or "Notice: " from
  a line, not only the leading one (class-diagnostics.php:288 and :293
  use `str_replace`). The prefix test itself has no trailing space.
- The REST probe accepts any body that decodes to a PHP array, and a
  JSON object decodes to one (class-diagnostics.php:664-666, where the
  comment says only that the JSON is checked for validity).
- The XML-RPC "valid response" test only looks for the substring
  "methodResponse" anywhere in the body (class-diagnostics.php:733-734).
  It does not parse the XML.

## Model

All source paths are under `jetpack-connection-checker/includes/`.

| member | source | states |
|---|---|---|
| Strings.IsPrefix | jetpack-connection-checker/includes/class-diagnostics.php:285 | `strpos(...) === 0`: the string opens with the pattern |
| Strings.Contains | jetpack-connection-checker/includes/class-diagnostics.php:273 | `strpos(...) !== false`: the pattern occurs at some position of the string; `Strings.ContainsStep` states the search step |
| Strings.RemoveAll | jetpack-connection-checker/includes/class-diagnostics.php:288 | `str_replace` with an empty replacement never lengthens the line, and leaves a line that does not contain the search string unchanged |
| Strings.RemoveAllFirstOccurrence | jetpack-connection-checker/includes/class-diagnostics.php:288 | `str_replace` deletes every occurrence, scanning left to right: the text before the first occurrence is kept, that occurrence is deleted, and the rest of the line is treated the same way |
| Strings.StripLeading | jetpack-connection-checker/includes/class-diagnostics.php:288 | a prefix whose only occurrence is at the front is removed exactly, leaving the rest of the line |
| Strings.ToLowerAscii | jetpack-connection-checker/includes/class-diagnostics.php:1055 | `strtolower` keeps the length, turns A-Z into a-z, keeps every other character, and leaves no capital letter |
| Strings.NatToStringRoundTrip | jetpack-connection-checker/includes/class-diagnostics.php:669 | the decimal text of a count reads back as that count |
| Probes.ClassifyRest | jetpack-connection-checker/includes/class-diagnostics.php:653-682 | a transport error gives Failed with "Error: " and the message; HTTP 200 gives Success if the body decodes to an array and Partial Success otherwise; any other code gives Failed with "HTTP code - reason". Each status holds if and only if its condition does |
| Probes.ReadMarkers | jetpack-connection-checker/includes/class-diagnostics.php:728-751 | the four substring tests on the response body ("Hello!", "methodResponse", "faultCode", the POST-only message), each true exactly when its text occurs in the body; the chain sees the body only through them |
| Probes.ClassifyResponse | jetpack-connection-checker/includes/class-diagnostics.php:727-761 | the ordered chain: "Hello!" at 200 is Success, then "methodResponse" at 200 is Available but Error with "faultCode" and Success without, then 405 is Blocked, then the POST-only message is Available, and Failed otherwise. Each status holds if and only if its condition does |
| Probes.ClassifyXmlrpc | jetpack-connection-checker/includes/class-diagnostics.php:688-762 | Disabled if and only if XML-RPC is switched off; a transport error gives Failed; an answer is classified by the chain over its body's markers |
| Probes.DisabledIgnoresResponse | jetpack-connection-checker/includes/class-diagnostics.php:692-697 | a disabled endpoint gets the same result whatever the network would have answered, since no request is made |
| Probes.GreetingBeatsFault | jetpack-connection-checker/includes/class-diagnostics.php:728-735 | a 200 body with both "Hello!" and "faultCode" is Success, because the greeting is tested first |
| Probes.MethodNotAllowedIsBlocked | jetpack-connection-checker/includes/class-diagnostics.php:746-755 | a 405 is Blocked even when its body carries the POST-only message |
| Probes.LabelsDistinct | jetpack-connection-checker/includes/class-diagnostics.php:226-242 | the status labels the ladder compares with `===` are pairwise different strings |
| Environment.StagingIndicator | jetpack-connection-checker/includes/class-diagnostics.php:604-610 | the reported indicator is the first one, in list order, that the URL contains: every indicator before it is absent. There is none exactly when the URL contains no indicator |
| Environment.ConnectionIssueLines | jetpack-connection-checker/includes/class-diagnostics.php:589-613 | every line starts with "Warning: " or "Notice: "; there is one line per check that fires (localhost, no HTTPS, a staging indicator) |
| Environment.EnvironmentFinding | jetpack-connection-checker/includes/class-diagnostics.php:285-295 | a line starting with "Warning:" becomes an `environment` notice, one starting with "Notice:" a `notice` notice, with every "Warning: " or "Notice: " removed; any other line gives nothing |
| Environment.WarningRemovedEverywhere | jetpack-connection-checker/includes/class-diagnostics.php:285-289 | a "Warning: " inside the message is deleted as well as the leading one: "Warning: " + m + "Warning: " + t gives the `environment` notice m + t |
| Environment.ParseEnvironmentLines | jetpack-connection-checker/includes/class-diagnostics.php:283-296 | at most one notice per line, each of kind `environment` or `notice` |
| Environment.ParseKeepsPrefixedLines | jetpack-connection-checker/includes/class-diagnostics.php:283-296 | one notice comes out per line if and only if every line has one of the two prefixes |
| Environment.ParseEnvironmentAppend | jetpack-connection-checker/includes/class-diagnostics.php:283-296 | the lines are read one at a time in order: parsing a concatenation concatenates the parses |
| Environment.ParseDropsUnprefixed | jetpack-connection-checker/includes/class-diagnostics.php:285-295 | a line with neither prefix is dropped |
| Environment.WarningRoundTrip | jetpack-connection-checker/includes/class-diagnostics.php:285-289 | "Warning: " plus a message without a "W" parses back to that message, as an `environment` notice |
| Environment.NoticeRoundTrip | jetpack-connection-checker/includes/class-diagnostics.php:290-294 | "Notice: " plus a message without an "N" parses back to that message, as a `notice` notice |
| Environment.EnvironmentNoticesRoundTrip | jetpack-connection-checker/includes/class-diagnostics.php:589-613 | parsing the lines the environment checks produce gives back exactly their messages, prefixes removed and kinds recovered, in the same order |
| Conflicts.Render | jetpack-connection-checker/includes/class-diagnostics.php:1158 | `sprintf` of a template: the fixed text, or the display name set between the text before and after its slot |
| Conflicts.MatchingRule | jetpack-connection-checker/includes/class-diagnostics.php:1151-1153 | the first table entry, in table order, with a pattern that occurs in the lower-cased name; none exactly when no entry matches |
| ConflictOrder.FirstMatchIsMatchingRule | jetpack-connection-checker/includes/class-diagnostics.php:1151-1160 | the entry a name is reported under is unique: whenever an entry matches and none before it does, the scan picks exactly that entry |
| Conflicts.ConflictFrom | jetpack-connection-checker/includes/class-diagnostics.php:1154-1159 | the conflict carries the entry's severity, its category and the plugin's display name, and its message is the entry's template rendered with the display name: a message with a slot names the plugin, a fixed message is the template's text |
| Conflicts.ConflictFor | jetpack-connection-checker/includes/class-diagnostics.php:1150-1163 | no conflict exactly when no entry matches the lower-cased name; otherwise the conflict of the entry that matches with none before it matching |
| Conflicts.PluginConflicts | jetpack-connection-checker/includes/class-diagnostics.php:1150-1163 | each plugin contributes at most one conflict, and exactly one when an entry matches |
| Conflicts.ScanPlugins | jetpack-connection-checker/includes/class-diagnostics.php:1150-1164 | no more conflicts than plugins, each naming an active plugin |
| Conflicts.ScanPluginsAppend | jetpack-connection-checker/includes/class-diagnostics.php:1150-1164 | plugins are scanned independently and in order: scanning a concatenation concatenates the scans |
| Conflicts.ScanPluginsOne | jetpack-connection-checker/includes/class-diagnostics.php:1150-1164 | scanning a single plugin gives exactly that plugin's conflict, if any |
| Conflicts.ScanPluginsComplete | jetpack-connection-checker/includes/class-diagnostics.php:1150-1164 | every active plugin that matches an entry contributes its conflict to the scan |
| Conflicts.ScanPluginsSound | jetpack-connection-checker/includes/class-diagnostics.php:1150-1164 | every conflict in the scan is the first-match conflict of some active plugin |
| Conflicts.SourceTable | jetpack-connection-checker/includes/class-diagnostics.php:1063-1147 | the table lists twelve entries in source order, each giving its patterns, severity, category and message template; every entry has a pattern and no pattern is empty; the corrected order only swaps the two maintenance entries |
| Conflicts.WithSeverity | jetpack-connection-checker/includes/class-diagnostics.php:332-349 | the conflicts of one severity, in scan order: each one kept has that severity and comes from the scan, and every scanned conflict of that severity is kept |
| Conflicts.SeveritiesPartition | jetpack-connection-checker/includes/class-diagnostics.php:332-349 | the three severity filters split the conflicts as a multiset: each conflict lands in exactly one of them, as often as it occurs in the scan |
| ConflictOrder.ComingSoonImpliesMaintenance | jetpack-connection-checker/includes/class-diagnostics.php:1120-1126 | every name the Coming Soon entry matches is also matched by the maintenance entry |
| ConflictOrder.SourceComingSoonUnreachable | jetpack-connection-checker/includes/class-diagnostics.php:1118-1130 | in the table order as written, no plugin is ever reported under the Coming Soon entry |
| ConflictOrder.CorrectedComingSoonReachable | jetpack-connection-checker/includes/class-diagnostics.php:1118-1130 | a name that reaches the maintenance entries goes to the maintenance entry as written, and to the Coming Soon entry in the corrected order |
| Ladder.EarlyExit | jetpack-connection-checker/includes/class-diagnostics.php:183-209 | the ladder goes on exactly when Jetpack is installed, active and connected; otherwise the first of the three checks that fails names the failure |
| Ladder.CategorizeWith | jetpack-connection-checker/includes/class-diagnostics.php:183-209 | when Jetpack is not installed, not active or not connected there is exactly one failure, of that kind, and no issue or notice |
| Ladder.HealthFailed | jetpack-connection-checker/includes/class-diagnostics.php:271-280 | the health loop reports a failure exactly when some line contains "Failed" |
| Ladder.FailureStages | jetpack-connection-checker/includes/class-diagnostics.php:213-253 | at most four failures before the conflicts, and none exactly when both tokens exist, REST did not fail and XML-RPC is not broken; `Ladder.FailureStagesCount` states the count of each kind and `Ladder.FailureStagesOrdered` their order |
| Ladder.IssueStages | jetpack-connection-checker/includes/class-diagnostics.php:228-280 | at most five issues before the conflicts, and none exactly when neither probe is degraded, the blog id and master user exist and no health line failed; `Ladder.IssueStagesCount` states the count of each kind and `Ladder.IssueStagesOrdered` their order |
| Ladder.SiteNotices | jetpack-connection-checker/includes/class-diagnostics.php:298-328 | at most four notices about the site, and none exactly when the staging, development and debug switches are off and the version notice is not due; `Ladder.SiteNoticesOrdered` states their order |
| Ladder.NoticeStages | jetpack-connection-checker/includes/class-diagnostics.php:282-328 | at least one notice per parsed environment line and at most four more; `Ladder.NoticeStagesCount` states the count of each kind, and `Ladder.EnvironmentFirst` and `Ladder.NoticeStagesOrdered` their order |
| Ladder.VersionNotices | jetpack-connection-checker/includes/class-diagnostics.php:321-327 | one old-version notice exactly when the version string is truthy and compares below 11.0, and it names the version |
| Ladder.VersionNoticesCount | jetpack-connection-checker/includes/class-diagnostics.php:321-327 | the version stage adds one `old_version` finding exactly when the version is truthy and outdated, and no finding of any other kind |
| Ladder.ConflictFindings | jetpack-connection-checker/includes/class-diagnostics.php:332-349 | one `plugin_conflict` finding per conflict of the given severity |
| Ladder.ConflictFindingsMessages | jetpack-connection-checker/includes/class-diagnostics.php:332-349 | those findings carry the conflicts' messages, one for one and in plugin order |
| Ladder.RouteConflicts | jetpack-connection-checker/includes/class-diagnostics.php:332-349 | every conflict adds exactly one finding to the buckets and no bucket shrinks |
| Ladder.RouteConflictsSplits | jetpack-connection-checker/includes/class-diagnostics.php:332-349 | the routing loop appends to each bucket exactly the conflicts of the severity it receives, in plugin order: critical to failures, warning to issues, the rest to notices |
| Ladder.Observe | jetpack-connection-checker/includes/class-diagnostics.php:229-331 | what the ladder observes of a site: no more conflicts than active plugins, and environment lines that parse back to exactly the localhost, HTTPS and staging notices that are due, in that order |
| Ladder.Categorize | jetpack-connection-checker/includes/class-diagnostics.php:179-356 | every bucket holds only kinds that belong in it, and past the early exits the `plugin_conflict` findings of each bucket are exactly the conflicts of its severity that the scan over the given table finds, in plugin order |
| Ladder.ConnectedBucket | jetpack-connection-checker/includes/class-diagnostics.php:211-349 | past the early exits, each bucket is its stages in source order followed by its conflicts |
| Ladder.FailureStagesCount | jetpack-connection-checker/includes/class-diagnostics.php:211-253 | the failure stages add one finding per missing token, one `rest_api` for REST Failed and one `xmlrpc` for XML-RPC Failed, Blocked or Disabled, and nothing else |
| Ladder.IssueStagesCount | jetpack-connection-checker/includes/class-diagnostics.php:226-280 | the issue stages add `rest_api_partial` for Partial Success, `xmlrpc_error` for Available but Error, one finding per missing blog id or master user, and at most one `connection_test`, and nothing else |
| Ladder.NoticeStagesCount | jetpack-connection-checker/includes/class-diagnostics.php:282-327 | the notice stages add the parsed environment notices and the staging, development, debug and old-version notices when they are due, and nothing else |
| Ladder.KindRouting | jetpack-connection-checker/includes/class-diagnostics.php:211-349 | past the early exits, every kind but `plugin_conflict` appears in its own bucket exactly as often as its check raises it, and in no other bucket. Success and Available raise nothing |
| Ladder.ConflictRouting | jetpack-connection-checker/includes/class-diagnostics.php:332-349 | past the early exits, the `plugin_conflict` findings of a bucket are exactly the conflicts of its severity, in plugin order |
| Ladder.StagesRaiseNoConflict | jetpack-connection-checker/includes/class-diagnostics.php:211-327 | no stage before the conflict loop adds a `plugin_conflict` finding |
| Ladder.BucketsFiled | jetpack-connection-checker/includes/class-diagnostics.php:178-356 | every bucket holds only kinds that belong in it |
| Ladder.FailureStagesOrdered | jetpack-connection-checker/includes/class-diagnostics.php:213-253 | the failures come in the order the ladder appends them: blog token, user token, REST API, XML-RPC |
| Ladder.IssueStagesOrdered | jetpack-connection-checker/includes/class-diagnostics.php:228-280 | the issues come in the order the ladder appends them: partial REST API, XML-RPC error, blog id, master user, connection test |
| Ladder.SiteNoticesOrdered | jetpack-connection-checker/includes/class-diagnostics.php:298-328 | the notices about the site come in the order the ladder appends them: staging, development mode, debug mode, old version |
| Ladder.NoticeStagesOrdered | jetpack-connection-checker/includes/class-diagnostics.php:282-328 | the notices come in the order the ladder appends them: the environment lines first, then the notices about the site |
| Ladder.BucketsInLadderOrder | jetpack-connection-checker/includes/class-diagnostics.php:178-356 | every bucket, for every state, is in ladder order: its stages in the order they run, then its plugin conflicts |
| Ladder.FirstFailure | jetpack-connection-checker/includes/class-diagnostics.php:213-253 | past the early exits, the first failure (the one the summary describes, :44-47) is the first failing check in the order blog token, user token, REST API, XML-RPC, and the critical conflicts only when none of them fails |
| Ladder.FirstIssue | jetpack-connection-checker/includes/class-diagnostics.php:228-280 | past the early exits, the first issue (the one the summary describes, :78-81) is the first degraded check in the order partial REST API, XML-RPC error, blog id, master user, connection test, and the warning-level conflicts only when none of them fires |
| Conflicts.NoneOfSeverity | jetpack-connection-checker/includes/class-diagnostics.php:332-349 | the severity filter is empty exactly when no conflict has that severity |
| Ladder.ConnectionTestOnce | jetpack-connection-checker/includes/class-diagnostics.php:271-280 | at most one `connection_test` issue however many health lines fail, and one exactly when the ladder is reached and some line contains "Failed" |
| Ladder.EnvironmentFirst | jetpack-connection-checker/includes/class-diagnostics.php:282-296 | past the early exits, the notices open with the parsed environment lines, in their order |
| Ladder.NoFailuresIff | jetpack-connection-checker/includes/class-diagnostics.php:183-253 | there are no failures exactly when the ladder is reached, both tokens exist, REST did not fail, XML-RPC is not broken, and no conflict is critical |
| Ladder.NoIssuesIff | jetpack-connection-checker/includes/class-diagnostics.php:226-280 | past the early exits, there are no issues exactly when neither probe is degraded, the blog id and master user exist, no health line failed, and no conflict is a warning |
| Summary.CountPhrase | jetpack-connection-checker/includes/class-diagnostics.php:49-57 | the phrase opens with "(", the count and the noun, followed by "s" when the count is not one, and ends with the tail and ")"; its length is one longer exactly when the count is not one, so the whole string is fixed |
| Summary.AdditionalSuffix | jetpack-connection-checker/includes/class-diagnostics.php:48-58 | no suffix exactly when there is no other finding; otherwise a space and the count phrase: " (n additional ...", with the plural "s" for more than one, ending in ")" |
| Summary.Describe | jetpack-connection-checker/includes/class-diagnostics.php:44-58 | the description opens with the first finding's message, and is just that message exactly when no other finding follows; otherwise the message, a space and the count phrase of the other findings, singular for exactly one |
| Summary.Summarize | jetpack-connection-checker/includes/class-diagnostics.php:36-135 | the level is failure exactly when there are failures, issue exactly when there are issues but no failures, and success otherwise. A failure or issue description is the first finding's message with the count of the others ("additional critical issue" or "additional issue"). The failure headline is "critical issues" when the connection reads as connected and "not connected" otherwise. The success headline carries the count of notices when there are any, and the description says whether all systems work |
| Summary.NoticesDoNotAffectLevel | jetpack-connection-checker/includes/class-diagnostics.php:43-134 | replacing the notices never changes the level |
| Summary.CountPhraseInjective | jetpack-connection-checker/includes/class-diagnostics.php:49-57 | different counts give different phrases |
| Summary.AdditionalSuffixInjective | jetpack-connection-checker/includes/class-diagnostics.php:48-58 | different numbers of other findings give different suffixes, the empty one included |
| Summary.DescribeDeterminesCount | jetpack-connection-checker/includes/class-diagnostics.php:78-92 | two descriptions that open with the same message are equal only when they count the same number of other findings |
| Summary.HeadlineDeterminesNotices | jetpack-connection-checker/includes/class-diagnostics.php:104-134 | two success headlines are equal only when they count the same number of notices |
| Summary.EarlyExitSummary | jetpack-connection-checker/includes/class-diagnostics.php:43-58 | before the connection is established the level is failure and the description is the early exit's message with no suffix |
| Summary.SuccessIff | jetpack-connection-checker/includes/class-diagnostics.php:104-134 | the summary is a success exactly when the ladder is reached and no check behind a failure or an issue fires |

## Left out

- Host calls are inputs, not modelled: `file_exists`, `is_plugin_active`,
  the `Jetpack` and `Jetpack_Options` calls, `apply_filters`,
  `get_plugin_data`, `is_ssl` and `home_url`.
- `check_jetpack_connection_health` is not modelled: only the lines it
  returns are an input. Every line comes from a host call.
- Real HTTP is not modelled: a probe receives the outcome of its request.
- JSON decoding is not modelled. The REST probe receives the decoded
  element count, or None when the body is not a PHP array.
- `version_compare` against "11.0" is not modelled. It is an input
  boolean.
- `wp_remote_retrieve_response_code` is modelled as a natural number. The
  empty string it returns for a malformed response is not modelled. The
  source treats it like any other code that is not 200.
- Translation (`__`, `_n`) is left out. The English strings are used, and
  the plural form applies to every count but one.
- Report assembly is left out: the text report, the structured data and
  the environment information. It is string templating without a
  decision in it.
- The repeated runs of the ladder in `has_connection_issues` and
  `generate_structured_data` are left out.
- The admin page, the AJAX handler, the JavaScript front end and the
  plugin bootstrap are left out. They are user-interface plumbing.
- The active plugins arrive as the display names of the plugins whose
  file exists. The `file_exists` filter in front of the scan is not
  modelled.
- Ladder.Categorize: its contract states the filing of every bucket and
  the routing of the conflicts. The per-kind counts are proved over
  `CategorizeWith` for arbitrary observations (`Ladder.KindRouting`) and
  are not restated for the composition with `Observe`.
- Ladder.VersionNotices: the message is stated only as starting with
  "Jetpack version " and the version.
- Environment.ParseEnvironmentLines: its contract only bounds the length
  and names the two kinds. Order, content and dropping are stated by the
  lemmas after it.

## Findings

| source | as written | input that shows it | evidently intended | confidence | as-written member | corrected member |
|---|---|---|---|---|---|---|
| jetpack-connection-checker/includes/class-diagnostics.php:1118-1130 | The Coming Soon entry ("wp maintenance mode", "cmp coming soon", "cmp – coming soon") comes after the maintenance entry ("seedprod", "maintenance mode", "coming soon"). Each of its patterns contains one of the maintenance patterns, so the first-match scan never reaches it | a plugin named "WP Maintenance Mode" or "CMP Coming Soon" is reported with the generic "Maintenance/Coming Soon plugin" message | the specific entry is checked before the generic one, so these plugins get the "Coming Soon plugin" message | medium, not executed | ConflictOrder.SourceComingSoonUnreachable | ConflictOrder.CorrectedComingSoonReachable |

Both entries are critical and share the Maintenance category, so the bug
changes only the message. The model keeps both tables.
`Conflicts.SourceRules` is the order as written, and
`Ladder.Categorize(st, SourceRules)` reports what the source reports.
`Conflicts.KnownConflicts` is the corrected order, and
`Ladder.Categorize(st, KnownConflicts)` reports what was intended.

=== FILE: conflict_order.dfy ===
/**
 Consequences of the order of the conflict table: which entry a name is
 reported under, and the entry the source's order makes unreachable.
 */
module ConflictOrder {
  import opened Strings
  import opened Optional
  import opened Conflicts

  /** `s` contains `p` and `p` contains `q`, so `s` contains `q`. */
  lemma ContainsTransitive(s: string, p: string, q: string)
    requires Contains(s, p) && Contains(p, q)
    ensures Contains(s, q)
  {
    var i :| 0 <= i <= |s| - |p| && OccursAt(p, s, i);
    var j :| 0 <= j <= |p| - |q| && OccursAt(q, p, j);
    forall k | 0 <= k < |q|
      ensures s[i + j + k] == q[k]
    {
      assert s[i..i + |p|][j + k] == s[i + j + k];
      assert p[j..j + |q|][k] == p[j + k];
    }
    assert s[i + j..i + j + |q|] == q;
    assert OccursAt(q, s, i + j);
  }

  lemma ContainsSuffix(a: string, b: string)
    ensures Contains(a + b, b)
  {
    assert (a + b)[|a|..|a| + |b|] == b;
    assert OccursAt(b, a + b, |a|);
  }

  lemma WpMaintenanceWidensMaintenance()
    ensures Contains("wp maintenance mode", "maintenance mode")
  {
    assert "wp maintenance mode" == "wp " + "maintenance mode";
    ContainsSuffix("wp ", "maintenance mode");
  }

  lemma CmpComingSoonWidensComingSoon()
    ensures Contains("cmp coming soon", "coming soon")
    ensures Contains("cmp \U{2013} coming soon", "coming soon")
  {
    assert "cmp coming soon" == "cmp " + "coming soon";
    ContainsSuffix("cmp ", "coming soon");
    assert "cmp \U{2013} coming soon" == "cmp \U{2013} " + "coming soon";
    ContainsSuffix("cmp \U{2013} ", "coming soon");
  }

  /** Whatever the Coming Soon entry matches, the maintenance entry before it matches too. */
  lemma ComingSoonImpliesMaintenance(lowerName: string)
    requires RuleMatches(ComingSoon, lowerName)
    ensures RuleMatches(MaintenanceMode, lowerName)
  {
    WpMaintenanceWidensMaintenance();
    CmpComingSoonWidensComingSoon();
    var p :| p in ComingSoon.Patterns() && Contains(lowerName, p);
    var q := if p == "wp maintenance mode" then "maintenance mode" else "coming soon";
    ContainsTransitive(lowerName, p, q);
    assert q in MaintenanceMode.Patterns();
  }

  /** In the table as the source lists it, no plugin name is ever reported under the Coming Soon entry. */
  lemma SourceComingSoonUnreachable(lowerName: string)
    ensures !IsFirstMatch(SourceRules, lowerName, 9)
  {
    if RuleMatches(ComingSoon, lowerName) {
      ComingSoonImpliesMaintenance(lowerName);
      assert RuleMatches(SourceRules[8], lowerName);
    }
  }

  /**
   A name that matches the Coming Soon entry and none of the eight entries
   ahead of both maintenance entries is reported under the generic
   maintenance entry in the source's order, and under the Coming Soon
   entry in the corrected order.
   */
  lemma CorrectedComingSoonReachable(lowerName: string)
    requires RuleMatches(ComingSoon, lowerName)
    requires forall j :: 0 <= j < 8 ==> !RuleMatches(SourceRules[j], lowerName)
    ensures IsFirstMatch(SourceRules, lowerName, 8) && SourceRules[8] == MaintenanceMode
    ensures IsFirstMatch(KnownConflicts, lowerName, 8) && KnownConflicts[8] == ComingSoon
  {
    ComingSoonImpliesMaintenance(lowerName);
    assert SourceRules[..8] == KnownConflicts[..8];
    forall j | 0 <= j < 8
      ensures !RuleMatches(KnownConflicts[j], lowerName)
    {
      assert KnownConflicts[j] == KnownConflicts[..8][j] == SourceRules[..8][j];
    }
    assert RuleMatches(SourceRules[8], lowerName);
    assert RuleMatches(KnownConflicts[8], lowerName);
  }

  /** A name has one first match, and it is the entry the scan picks. */
  lemma FirstMatchIsMatchingRule(rules: seq<Entry>, lowerName: string, k: int)
    requires IsFirstMatch(rules, lowerName, k)
    ensures MatchingRule(rules, lowerName) == Some(k)
  {
  }
}

=== FILE: conflicts.dfy ===
/**
 The conflict scanner: every active plugin's lower-cased display name is
 matched against a fixed table of known conflicting plugins. Table order is
 precedence order, the first entry with a pattern occurring in the name wins,
 and each plugin yields at most one conflict.
 */
module Conflicts {
  import opened Strings
  import opened Optional
  import opened Search

  datatype Severity = Critical | Warning | Notice

  /** A message template: fixed text, or text with one slot for the plugin's display name. */
  datatype Template = Plain(text: string) | Slot(before: string, after: string)

  /** `sprintf($template, $display_name)` for a template with at most one `%s`. */
  function Render(t: Template, name: string): (r: string)
    ensures t.Plain? ==> r == t.text
    ensures t.Slot? ==> IsPrefix(t.before, r) && IsSuffix(t.after, r) && |r| == |t.before| + |name| + |t.after|
    ensures t.Slot? ==> r[|t.before|..|t.before| + |name|] == name
  {
    match t
    case Plain(text) => text
    case Slot(before, after) => before + name + after
  }

  /**
   The entries of the known-conflicts table. Each entry carries its
   substring patterns, its severity, its category and its message template.
   */
  datatype Entry =
    | XmlrpcBlocker | IthemesSecurity | AllInOneSecurity | Wordfence
    | Autoptimize | W3TotalCache | LiteSpeedCache | FastVelocityMinify
    | MaintenanceMode | ComingSoon | AdPlugins | GdprPlugins
  {
    /** The lower-case substrings that identify the entry's plugins. */
    function Patterns(): seq<string> {
      match this
      case XmlrpcBlocker => ["disable xml-rpc", "disable xmlrpc", "xmlrpc-api", "simple disable xml-rpc"]
      case IthemesSecurity => ["ithemes security", "ithemes-security", "better-wp-security"]
      case AllInOneSecurity => ["all in one wp security", "all-in-one-wp-security", "aiowpsecurity"]
      case Wordfence => ["wordfence", "wordfence security"]
      case Autoptimize => ["autoptimize"]
      case W3TotalCache => ["w3 total cache", "w3-total-cache"]
      case LiteSpeedCache => ["litespeed cache", "litespeed-cache"]
      case FastVelocityMinify => ["fast velocity minify", "fast-velocity-minify"]
      case MaintenanceMode => ["seedprod", "maintenance mode", "coming soon"]
      case ComingSoon => ["wp maintenance mode", "cmp coming soon", "cmp \U{2013} coming soon"]
      case AdPlugins => ["ad inserter", "advanced ads", "ads.txt"]
      case GdprPlugins => ["complianz", "gdpr cookie consent"]
    }

    function SeverityLevel(): Severity {
      match this
      case XmlrpcBlocker | MaintenanceMode | ComingSoon => Critical
      case IthemesSecurity | AllInOneSecurity | Wordfence | LiteSpeedCache => Warning
      case Autoptimize | W3TotalCache | FastVelocityMinify | AdPlugins | GdprPlugins => Notice
    }

    function Category(): string {
      match this
      case XmlrpcBlocker => "XML-RPC"
      case IthemesSecurity | AllInOneSecurity | Wordfence => "Security"
      case Autoptimize | FastVelocityMinify => "Optimization"
      case W3TotalCache | LiteSpeedCache => "Caching"
      case MaintenanceMode | ComingSoon => "Maintenance"
      case AdPlugins => "Advertising"
      case GdprPlugins => "Privacy"
    }

    function Template(): Template {
      match this
      case XmlrpcBlocker => Slot("Plugin \"", "\" could be blocking XML-RPC which Jetpack requires. Try disabling this plugin temporarily and test the connection again.")
      case IthemesSecurity => Slot("Security plugin \"", "\" could be blocking XML-RPC. Check its XML-RPC settings and whitelist Jetpack connections.")
      case AllInOneSecurity => Slot("Security plugin \"", "\" could be blocking Jetpack. Check the Firewall and Brute Force settings.")
      case Wordfence => Plain("Wordfence could be blocking or throttling Jetpack. Check Firewall settings and whitelist WordPress.com IPs.")
      case Autoptimize => Plain("Autoptimize may affect Jetpack functionality. If issues persist, try excluding Jetpack scripts from optimization.")
      case W3TotalCache => Plain("W3 Total Cache may affect Jetpack. Consider excluding Jetpack pages from caching if issues occur.")
      case LiteSpeedCache => Plain("LiteSpeed Cache may conflict with Jetpack. Try disabling \"Localize Resources\" in Cache settings.")
      case FastVelocityMinify => Plain("Fast Velocity Minify may affect Jetpack scripts. Consider excluding Jetpack from minification.")
      case MaintenanceMode => Slot("Maintenance/Coming Soon plugin \"", "\" could be blocking Jetpack's connection checks. Try disabling temporarily to test.")
      case ComingSoon => Slot("Coming Soon plugin \"", "\" could be blocking Jetpack. Try disabling or whitelist WordPress.com access.")
      case AdPlugins => Slot("Ads plugin \"", "\" may conflict with Jetpack WordAds. Ensure ads.txt management doesn't interfere.")
      case GdprPlugins => Slot("GDPR plugin \"", "\" may break Jetpack Stats. Check if Jetpack integration needs to be disabled in privacy settings.")
    }
  }

  datatype Conflict = Conflict(severity: Severity, category: string, pluginName: string, message: string)

  /** The table in the order the source lists it. */
  const SourceRules: seq<Entry> := [
    XmlrpcBlocker, IthemesSecurity, AllInOneSecurity, Wordfence,
    Autoptimize, W3TotalCache, LiteSpeedCache, FastVelocityMinify,
    MaintenanceMode, ComingSoon, AdPlugins, GdprPlugins]

  /**
   The corrected order: the source's entries with the specific Coming Soon
   entry moved ahead of the generic maintenance entry, so that it can be
   reached (see SourceComingSoonUnreachable).
   */
  const KnownConflicts: seq<Entry> := [
    XmlrpcBlocker, IthemesSecurity, AllInOneSecurity, Wordfence,
    Autoptimize, W3TotalCache, LiteSpeedCache, FastVelocityMinify,
    ComingSoon, MaintenanceMode, AdPlugins, GdprPlugins]

  /**
   The shape of the table as the source lists it: twelve entries, each with
   at least one pattern and no empty pattern (an empty pattern would match
   every name). The corrected order differs from it only by swapping the two
   maintenance entries.
   */
  lemma SourceTable()
    ensures |SourceRules| == 12 && |KnownConflicts| == 12
    ensures forall i :: 0 <= i < |SourceRules| ==> PatternsNonEmpty(SourceRules[i])
    ensures forall i :: 0 <= i < 12 && i != 8 && i != 9 ==> SourceRules[i] == KnownConflicts[i]
    ensures SourceRules[8] == KnownConflicts[9] == MaintenanceMode && SourceRules[9] == KnownConflicts[8] == ComingSoon
  {
    forall i | 0 <= i < |SourceRules|
      ensures PatternsNonEmpty(SourceRules[i])
    {
      EntryPatternsNonEmpty(SourceRules[i]);
    }
  }

  /** `e` has at least one pattern and none of its patterns is empty. */
  predicate PatternsNonEmpty(e: Entry) {
    |e.Patterns()| > 0 && forall k :: 0 <= k < |e.Patterns()| ==> |e.Patterns()[k]| > 0
  }

  /** Checked entry by entry, which keeps each case small. */
  lemma EntryPatternsNonEmpty(e: Entry)
    ensures PatternsNonEmpty(e)
  {
    match e
    case XmlrpcBlocker =>
    case IthemesSecurity =>
    case AllInOneSecurity =>
    case Wordfence =>
    case Autoptimize =>
    case W3TotalCache =>
    case LiteSpeedCache =>
    case FastVelocityMinify =>
    case MaintenanceMode =>
    case ComingSoon =>
    case AdPlugins =>
    case GdprPlugins =>
  }

  /** Some pattern of `entry` occurs in the lower-cased name. */
  predicate RuleMatches(entry: Entry, lowerName: string) {
    exists p :: p in entry.Patterns() && Contains(lowerName, p)
  }

  /** `k` is the entry a plugin named `lowerName` is reported under. */
  ghost predicate IsFirstMatch(rules: seq<Entry>, lowerName: string, k: int) {
    0 <= k < |rules| && RuleMatches(rules[k], lowerName) &&
    forall j :: 0 <= j < k ==> !RuleMatches(rules[j], lowerName)
  }

  /** The first entry, in table order, that matches the lower-cased name. */
  function MatchingRule(rules: seq<Entry>, lowerName: string): (r: Option<nat>)
    ensures r.Some? ==> IsFirstMatch(rules, lowerName, r.value)
    ensures r.None? <==> forall j :: 0 <= j < |rules| ==> !RuleMatches(rules[j], lowerName)
  {
    FirstWhere(rules, (entry: Entry) => RuleMatches(entry, lowerName))
  }

  /**
   The conflict a plugin raises when it is reported under `entry`: the
   entry's severity and category, and a message that names the plugin
   wherever the template has a slot for it.
   */
  function ConflictFrom(entry: Entry, displayName: string): (r: Conflict)
    ensures r.pluginName == displayName && r.severity == entry.SeverityLevel() && r.category == entry.Category()
    ensures r.message == Render(entry.Template(), displayName)
    ensures entry.Template().Slot? ==> Contains(r.message, displayName)
    ensures entry.Template().Plain? ==> r.message == entry.Template().text
  {
    var message := Render(entry.Template(), displayName);
    SlotNamesPlugin(entry.Template(), displayName);
    Conflict(entry.SeverityLevel(), entry.Category(), displayName, message)
  }

  lemma SlotNamesPlugin(t: Template, name: string)
    ensures t.Slot? ==> Contains(Render(t, name), name)
  {
    if t.Slot? {
      assert OccursAt(name, Render(t, name), |t.before|);
    }
  }

  /** The conflict reported for one active plugin: the one from its first matching entry, if any. */
  function ConflictFor(rules: seq<Entry>, displayName: string): (r: Option<Conflict>)
    ensures r.None? <==> forall j :: 0 <= j < |rules| ==> !RuleMatches(rules[j], ToLowerAscii(displayName))
    ensures r.Some? ==> exists k :: IsFirstMatch(rules, ToLowerAscii(displayName), k) && r.value == ConflictFrom(rules[k], displayName)
  {
    match MatchingRule(rules, ToLowerAscii(displayName))
    case None => None
    case Some(k) => Some(ConflictFrom(rules[k], displayName))
  }

  /** The conflicts one plugin contributes: none or one. */
  function PluginConflicts(rules: seq<Entry>, displayName: string): (r: seq<Conflict>)
    ensures |r| <= 1
    ensures |r| == 1 <==> ConflictFor(rules, displayName).Some?
    ensures |r| == 1 ==> r[0] == ConflictFor(rules, displayName).value
  {
    var c := ConflictFor(rules, displayName);
    if c.Some? then [c.value] else []
  }

  /** `check_plugin_conflicts` over the display names of the active plugins, in activation order. */
  function ScanPlugins(rules: seq<Entry>, displayNames: seq<string>): (r: seq<Conflict>)
    ensures |r| <= |displayNames|
    ensures forall i :: 0 <= i < |r| ==> r[i].pluginName in displayNames
    decreases |displayNames|
  {
    if |displayNames| == 0 then []
    else
      PluginConflicts(rules, displayNames[0]) + ScanPlugins(rules, displayNames[1..])
  }

  /** Plugins are scanned independently and in order: the conflicts of a concatenation are the concatenated conflicts. */
  lemma {:induction false} ScanPluginsAppend(rules: seq<Entry>, a: seq<string>, b: seq<string>)
    ensures ScanPlugins(rules, a + b) == ScanPlugins(rules, a) + ScanPlugins(rules, b)
    decreases |a|
  {
    if |a| == 0 {
      assert a + b == b;
    } else {
      assert (a + b)[0] == a[0];
      assert (a + b)[1..] == a[1..] + b;
      ScanPluginsAppend(rules, a[1..], b);
    }
  }

  /** Scanning one plugin yields that plugin's conflicts; with `ScanPluginsAppend` this fixes every scan. */
  lemma ScanPluginsOne(rules: seq<Entry>, displayName: string)
    ensures ScanPlugins(rules, [displayName]) == PluginConflicts(rules, displayName)
  {
    assert [displayName][1..] == [];
  }

  /** Every active plugin with a matching entry has its conflict in the scan. */
  lemma ScanPluginsComplete(rules: seq<Entry>, displayNames: seq<string>, i: int)
    requires 0 <= i < |displayNames|
    ensures ConflictFor(rules, displayNames[i]).Some? ==> ConflictFor(rules, displayNames[i]).value in ScanPlugins(rules, displayNames)
  {
    var n := displayNames[i];
    var before, after := displayNames[..i], displayNames[i + 1..];
    SplitAround(displayNames, i);
    ScanPluginsAppend(rules, before, [n] + after);
    ScanPluginsAppend(rules, [n], after);
    ScanPluginsOne(rules, n);
    if ConflictFor(rules, n).Some? {
      var c := ConflictFor(rules, n).value;
      InEitherPart(c, PluginConflicts(rules, n), ScanPlugins(rules, after));
      InEitherPart(c, ScanPlugins(rules, before), ScanPlugins(rules, [n] + after));
    }
  }

  /** `s` split around its `i`-th element. */
  lemma SplitAround<T>(s: seq<T>, i: int)
    requires 0 <= i < |s|
    ensures s == s[..i] + ([s[i]] + s[i + 1..])
  {
  }

  lemma InEitherPart(c: Conflict, a: seq<Conflict>, b: seq<Conflict>)
    ensures c in a + b <==> c in a || c in b
  {
  }

  /** Every conflict of the scan is the conflict of one of the active plugins. */
  lemma {:induction false} ScanPluginsSound(rules: seq<Entry>, displayNames: seq<string>, c: Conflict)
    requires c in ScanPlugins(rules, displayNames)
    ensures exists i :: 0 <= i < |displayNames| && ConflictFor(rules, displayNames[i]) == Some(c)
    decreases |displayNames|
  {
    var head := PluginConflicts(rules, displayNames[0]);
    var tail := ScanPlugins(rules, displayNames[1..]);
    assert ScanPlugins(rules, displayNames) == head + tail;
    if c in head {
      assert ConflictFor(rules, displayNames[0]) == Some(c);
    } else {
      assert c in tail;
      ScanPluginsSound(rules, displayNames[1..], c);
      var j :| 0 <= j < |displayNames[1..]| && ConflictFor(rules, displayNames[1..][j]) == Some(c);
      assert displayNames[1..][j] == displayNames[j + 1];
    }
  }

  /** The conflicts of the given severity, in plugin order. */
  function WithSeverity(cs: seq<Conflict>, sev: Severity): (r: seq<Conflict>)
    ensures |r| <= |cs|
    ensures forall i :: 0 <= i < |r| ==> r[i].severity == sev && r[i] in cs
    ensures forall c :: c in cs && c.severity == sev ==> c in r
    decreases |cs|
  {
    if |cs| == 0 then []
    else (if cs[0].severity == sev then [cs[0]] else []) + WithSeverity(cs[1..], sev)
  }

  /** No conflict of severity `sev` was found exactly when its filter is empty. */
  lemma NoneOfSeverity(cs: seq<Conflict>, sev: Severity)
    ensures WithSeverity(cs, sev) == [] <==> forall i :: 0 <= i < |cs| ==> cs[i].severity != sev
  {
    if WithSeverity(cs, sev) == [] {
      forall i | 0 <= i < |cs|
        ensures cs[i].severity != sev
      {
        assert cs[i] in cs;
      }
    }
  }

  /**
   Every conflict has exactly one severity, so the three severity filters
   split the conflicts: each one lands in exactly one of them, as often as it
   occurs.
   */
  lemma {:induction false} SeveritiesPartition(cs: seq<Conflict>)
    ensures multiset(cs) == multiset(WithSeverity(cs, Critical)) + multiset(WithSeverity(cs, Warning)) + multiset(WithSeverity(cs, Notice))
    decreases |cs|
  {
    if |cs| > 0 {
      var rest := cs[1..];
      SeveritiesPartition(rest);
      MultisetCons(cs);
      WithSeverityStep(cs, Critical);
      WithSeverityStep(cs, Warning);
      WithSeverityStep(cs, Notice);
      Regroup(cs[0], multiset(cs), multiset(rest),
        multiset(WithSeverity(rest, Critical)), multiset(WithSeverity(rest, Warning)), multiset(WithSeverity(rest, Notice)),
        multiset(WithSeverity(cs, Critical)), multiset(WithSeverity(cs, Warning)), multiset(WithSeverity(cs, Notice)));
    }
  }

  lemma MultisetCons(cs: seq<Conflict>)
    requires |cs| > 0
    ensures multiset(cs) == multiset{cs[0]} + multiset(cs[1..])
  {
    assert cs == [cs[0]] + cs[1..];
  }

  /** The bookkeeping of one step of the partition: the head conflict joins the part of its own severity. */
  lemma Regroup(c: Conflict, all: multiset<Conflict>, rest: multiset<Conflict>,
                x: multiset<Conflict>, y: multiset<Conflict>, z: multiset<Conflict>,
                x': multiset<Conflict>, y': multiset<Conflict>, z': multiset<Conflict>)
    requires all == multiset{c} + rest && rest == x + y + z
    requires x' == (if c.severity == Critical then multiset{c} else multiset{}) + x
    requires y' == (if c.severity == Warning then multiset{c} else multiset{}) + y
    requires z' == (if c.severity == Notice then multiset{c} else multiset{}) + z
    ensures all == x' + y' + z'
  {
  }

  lemma WithSeverityStep(cs: seq<Conflict>, sev: Severity)
    requires |cs| > 0
    ensures multiset(WithSeverity(cs, sev)) ==
      (if cs[0].severity == sev then multiset{cs[0]} else multiset{}) + multiset(WithSeverity(cs[1..], sev))
  {
    var head: seq<Conflict> := if cs[0].severity == sev then [cs[0]] else [];
    assert WithSeverity(cs, sev) == head + WithSeverity(cs[1..], sev);
    assert multiset(head + WithSeverity(cs[1..], sev)) == multiset(head) + multiset(WithSeverity(cs[1..], sev));
  }
}

=== FILE: environment.dfy ===
/**
 The environment warnings of `check_connection_issues` and the way the
 classifier reads them back: each line is rendered with a "Warning: " or
 "Notice: " prefix, and the classifier re-derives the notice kind from that
 prefix and strips it with `str_replace`.
 */
module Environment {
  import opened Strings
  import opened Optional
  import opened Search
  import opened Findings

  const WarningPrefix := "Warning: "
  const NoticePrefix := "Notice: "

  const LocalhostMessage := "Site appears" + " to be on localhost" + " - this will" + " prevent Jetpack" + " connection"
  const HttpsMessage := "Site is not" + " using HTTPS" + " - this may cause" + " connection issues"

  /** Substrings of the site URL that suggest a staging copy, in the order they are tried. */
  const StagingIndicators: seq<string> := ["staging", "dev", "test", "demo"]

  function StagingMessage(indicator: string): string {
    "Site URL contains \"" + indicator + "\" - this may" + " indicate a staging site"
  }

  predicate LooksLocal(siteUrl: string) {
    Contains(siteUrl, "localhost") || Contains(siteUrl, "127.0.0.1")
  }

  /** The staging indicator reported for `siteUrl`: the first one it contains. */
  function StagingIndicator(siteUrl: string): (r: Option<string>)
    ensures r.Some? ==> r.value in StagingIndicators && Contains(siteUrl, r.value)
    ensures r.Some? ==> exists k :: 0 <= k < |StagingIndicators| && r.value == StagingIndicators[k] &&
                                    forall j :: 0 <= j < k ==> !Contains(siteUrl, StagingIndicators[j])
    ensures r.None? <==> forall j :: 0 <= j < |StagingIndicators| ==> !Contains(siteUrl, StagingIndicators[j])
  {
    match FirstWhere(StagingIndicators, (ind: string) => Contains(siteUrl, ind))
    case None => None
    case Some(k) => Some(StagingIndicators[k])
  }

  function LocalhostLines(siteUrl: string): seq<string> {
    if LooksLocal(siteUrl) then [WarningPrefix + LocalhostMessage] else []
  }

  function HttpsLines(isSsl: bool): seq<string> {
    if !isSsl then [NoticePrefix + HttpsMessage] else []
  }

  function StagingLines(siteUrl: string): seq<string> {
    match StagingIndicator(siteUrl)
    case None => []
    case Some(ind) => [WarningPrefix + StagingMessage(ind)]
  }

  /**
   `check_connection_issues` with `home_url()` and `is_ssl()` as inputs: at
   most one localhost warning, one HTTPS notice and one staging warning, in
   that order.
   */
  function ConnectionIssueLines(siteUrl: string, isSsl: bool): (r: seq<string>)
    ensures |r| <= 3
    ensures forall i :: 0 <= i < |r| ==> IsPrefix(WarningPrefix, r[i]) || IsPrefix(NoticePrefix, r[i])
    ensures |r| == (if LooksLocal(siteUrl) then 1 else 0) + (if isSsl then 0 else 1)
                   + (if StagingIndicator(siteUrl).Some? then 1 else 0)
  {
    LocalhostLines(siteUrl) + HttpsLines(isSsl) + StagingLines(siteUrl)
  }

  /**
   One line as the classifier reads it: "Warning:" at the start makes an
   `environment` notice, "Notice:" a `notice` notice, anything else nothing.
   The prefix test has no trailing space but the removal does, and the
   removal deletes every occurrence in the line, not only the leading one.
   */
  function EnvironmentFinding(line: string): (r: Option<Finding>)
    ensures r.Some? <==> IsPrefix("Warning:", line) || IsPrefix("Notice:", line)
    ensures IsPrefix("Warning:", line) ==> r == Some(Finding(Environment, RemoveAll(line, WarningPrefix)))
    ensures !IsPrefix("Warning:", line) && IsPrefix("Notice:", line) ==>
      r == Some(Finding(EnvNotice, RemoveAll(line, NoticePrefix)))
  {
    if IsPrefix("Warning:", line) then Some(Finding(Environment, RemoveAll(line, WarningPrefix)))
    else if IsPrefix("Notice:", line) then Some(Finding(EnvNotice, RemoveAll(line, NoticePrefix)))
    else None
  }

  /** The loop over `check_connection_issues` output in the classifier. */
  function ParseEnvironmentLines(lines: seq<string>): (r: seq<Finding>)
    ensures |r| <= |lines|
    ensures forall i :: 0 <= i < |r| ==> r[i].kind == Environment || r[i].kind == EnvNotice
    decreases |lines|
  {
    if |lines| == 0 then []
    else
      (match EnvironmentFinding(lines[0])
       case None => []
       case Some(f) => [f])
      + ParseEnvironmentLines(lines[1..])
  }

  /** Every line is kept exactly when every line carries one of the two prefixes. */
  lemma {:induction false} ParseKeepsPrefixedLines(lines: seq<string>)
    ensures |ParseEnvironmentLines(lines)| == |lines| <==> forall i :: 0 <= i < |lines| ==> EnvironmentFinding(lines[i]).Some?
    decreases |lines|
  {
    if |lines| > 0 {
      ParseKeepsPrefixedLines(lines[1..]);
      assert forall i :: 1 <= i < |lines| ==> lines[i] == lines[1..][i - 1];
    }
  }

  /** Parsing is line by line: the findings of a concatenation are the concatenated findings, in order. */
  lemma {:induction false} ParseEnvironmentAppend(a: seq<string>, b: seq<string>)
    ensures ParseEnvironmentLines(a + b) == ParseEnvironmentLines(a) + ParseEnvironmentLines(b)
    decreases |a|
  {
    if |a| == 0 {
      assert a + b == b;
    } else {
      assert (a + b)[0] == a[0];
      assert (a + b)[1..] == a[1..] + b;
      ParseEnvironmentAppend(a[1..], b);
    }
  }

  /** A line without either prefix is dropped. */
  lemma ParseDropsUnprefixed(line: string)
    requires !IsPrefix("Warning:", line) && !IsPrefix("Notice:", line)
    ensures ParseEnvironmentLines([line]) == []
  {
  }

  lemma WarningRoundTrip(message: string)
    requires 'W' !in message
    ensures ParseEnvironmentLines([WarningPrefix + message]) == [Finding(Environment, message)]
  {
    MissingCharMeansAbsent(message, WarningPrefix, 'W');
    StripLeading(WarningPrefix, message);
    assert IsPrefix("Warning:", WarningPrefix + message);
  }

  /**
   The removal is not limited to the leading prefix: a "Warning: " inside
   the line is deleted as well, so the two parts around it are joined.
   */
  lemma WarningRemovedEverywhere(m: string, t: string)
    requires 'W' !in m && 'W' !in t
    ensures EnvironmentFinding(WarningPrefix + m + WarningPrefix + t) == Some(Finding(Environment, m + t))
  {
    var line := WarningPrefix + m + WarningPrefix + t;
    assert line[..8] == "Warning:";
    assert line == [] + WarningPrefix + (m + WarningPrefix + t);
    assert !Contains([] + WarningPrefix[..8], WarningPrefix);
    RemoveAllFirstOccurrence([], WarningPrefix, m + WarningPrefix + t);
    NoWarningBefore(m);
    RemoveAllFirstOccurrence(m, WarningPrefix, t);
    MissingCharMeansAbsent(t, WarningPrefix, 'W');
    StripLeading(WarningPrefix, t);
  }

  lemma NoWarningBefore(m: string)
    requires 'W' !in m
    ensures !Contains(m + WarningPrefix[..8], WarningPrefix)
  {
    var w := m + WarningPrefix[..8];
    forall i | 0 <= i <= |w| - |WarningPrefix|
      ensures !OccursAt(WarningPrefix, w, i)
    {
      assert w[i] == m[i] != 'W';
      assert w[i..i + |WarningPrefix|][0] == w[i];
    }
  }

  lemma NoticeRoundTrip(message: string)
    requires 'N' !in message
    ensures ParseEnvironmentLines([NoticePrefix + message]) == [Finding(EnvNotice, message)]
  {
    assert (NoticePrefix + message)[0] == 'N';
    MissingCharMeansAbsent(message, NoticePrefix, 'N');
    StripLeading(NoticePrefix, message);
    assert IsPrefix("Notice:", NoticePrefix + message);
  }

  /**
   Rendering and re-parsing the environment checks gives back exactly the
   intended notices, with their prefixes gone and their kinds recovered.
   */
  lemma {:induction false} EnvironmentNoticesRoundTrip(siteUrl: string, isSsl: bool)
    ensures ParseEnvironmentLines(ConnectionIssueLines(siteUrl, isSsl)) ==
      (if LooksLocal(siteUrl) then [Finding(Environment, LocalhostMessage)] else [])
      + (if !isSsl then [Finding(EnvNotice, HttpsMessage)] else [])
      + (match StagingIndicator(siteUrl)
         case None => []
         case Some(ind) => [Finding(Environment, StagingMessage(ind))])
  {
    ParseEnvironmentAppend(LocalhostLines(siteUrl) + HttpsLines(isSsl), StagingLines(siteUrl));
    ParseEnvironmentAppend(LocalhostLines(siteUrl), HttpsLines(isSsl));
    LocalhostRoundTrip(siteUrl);
    HttpsRoundTrip(isSsl);
    StagingRoundTrip(siteUrl);
  }

  lemma LocalhostRoundTrip(siteUrl: string)
    ensures ParseEnvironmentLines(LocalhostLines(siteUrl)) ==
      (if LooksLocal(siteUrl) then [Finding(Environment, LocalhostMessage)] else [])
  {
    if LooksLocal(siteUrl) {
      WarningRoundTrip(LocalhostMessage);
    }
  }

  lemma HttpsRoundTrip(isSsl: bool)
    ensures ParseEnvironmentLines(HttpsLines(isSsl)) ==
      (if !isSsl then [Finding(EnvNotice, HttpsMessage)] else [])
  {
    if !isSsl {
      NoticeRoundTrip(HttpsMessage);
    }
  }

  lemma StagingIndicatorLetters(indicator: string)
    requires indicator in StagingIndicators
    ensures 'W' !in indicator
  {
  }

  lemma StagingMessageLetters(indicator: string)
    requires 'W' !in indicator
    ensures 'W' !in StagingMessage(indicator)
  {
  }

  lemma StagingRoundTrip(siteUrl: string)
    ensures ParseEnvironmentLines(StagingLines(siteUrl)) ==
      (match StagingIndicator(siteUrl)
       case None => []
       case Some(ind) => [Finding(Environment, StagingMessage(ind))])
  {
    match StagingIndicator(siteUrl)
    case None =>
    case Some(ind) =>
      StagingIndicatorLetters(ind);
      StagingMessageLetters(ind);
      WarningRoundTrip(StagingMessage(ind));
  }
}

=== FILE: findings.dfy ===
/** An optional value, for lookups that may find nothing. */
module Optional {
  datatype Option<+T> = None | Some(value: T)
}

/**
 The observations the diagnostics produce: a Finding is a machine-readable
 kind and a human-readable message; Buckets are the three ordered severity
 lists (failures, issues, notices) in insertion order, without de-duplication.
 */
module Findings {

  /** The `type` strings of the findings, one constructor per string. */
  datatype Kind =
    | NotInstalled | NotActive | NotConnected
    | BlogToken | UserToken
    | RestApi | RestApiPartial
    | Xmlrpc | XmlrpcError
    | MissingBlogId | MissingMasterUser
    | ConnectionTest
    | Environment | EnvNotice
    | StagingSite | DevelopmentMode | DebugMode
    | OldVersion
    | PluginConflict
  {
    /** The `type` string the report carries for this kind. */
    function Name(): string {
      match this
      case NotInstalled => "not_installed"
      case NotActive => "not_active"
      case NotConnected => "not_connected"
      case BlogToken => "blog_token"
      case UserToken => "user_token"
      case RestApi => "rest_api"
      case RestApiPartial => "rest_api_partial"
      case Xmlrpc => "xmlrpc"
      case XmlrpcError => "xmlrpc_error"
      case MissingBlogId => "missing_blog_id"
      case MissingMasterUser => "missing_master_user"
      case ConnectionTest => "connection_test"
      case Environment => "environment"
      case EnvNotice => "notice"
      case StagingSite => "staging_site"
      case DevelopmentMode => "development_mode"
      case DebugMode => "debug_mode"
      case OldVersion => "old_version"
      case PluginConflict => "plugin_conflict"
    }
  }

  datatype Finding = Finding(kind: Kind, message: string)

  /** The three buckets by name, most severe first. */
  datatype Tier = FailureTier | IssueTier | NoticeTier

  datatype Buckets = Buckets(failures: seq<Finding>, issues: seq<Finding>, notices: seq<Finding>) {
    function Of(t: Tier): seq<Finding> {
      match t
      case FailureTier => failures
      case IssueTier => issues
      case NoticeTier => notices
    }

    /** The buckets with `f` appended to bucket `t`; the other two are unchanged. */
    function Add(t: Tier, f: Finding): Buckets {
      match t
      case FailureTier => this.(failures := failures + [f])
      case IssueTier => this.(issues := issues + [f])
      case NoticeTier => this.(notices := notices + [f])
    }
  }

  /**
   The bucket a finding of kind `k` is filed under. A plugin conflict goes
   wherever its severity sends it, so it belongs in all three.
   */
  predicate BelongsIn(k: Kind, t: Tier) {
    match k
    case NotInstalled | NotActive | NotConnected | BlogToken | UserToken | RestApi | Xmlrpc => t == FailureTier
    case RestApiPartial | XmlrpcError | MissingBlogId | MissingMasterUser | ConnectionTest => t == IssueTier
    case Environment | EnvNotice | StagingSite | DevelopmentMode | DebugMode | OldVersion => t == NoticeTier
    case PluginConflict => true
  }

  /** Every finding of `s` belongs in bucket `t`. */
  predicate FiledUnder(s: seq<Finding>, t: Tier) {
    forall i :: 0 <= i < |s| ==> BelongsIn(s[i].kind, t)
  }

  /** The findings of kind `k`, in their original order. */
  function FilterKind(s: seq<Finding>, k: Kind): (r: seq<Finding>)
    ensures |r| <= |s|
    decreases |s|
  {
    if |s| == 0 then []
    else if s[0].kind == k then [s[0]] + FilterKind(s[1..], k)
    else FilterKind(s[1..], k)
  }

  /** A finding of kind `k` in `s` is counted. */
  lemma {:induction false} CountKindPositive(s: seq<Finding>, i: int)
    requires 0 <= i < |s|
    ensures CountKind(s, s[i].kind) > 0
    decreases |s|
  {
    if i > 0 && s[0].kind != s[i].kind {
      assert s[1..][i - 1] == s[i];
      CountKindPositive(s[1..], i - 1);
    }
  }

  /** A bucket without findings of kind `k` counts none. */
  lemma {:induction false} CountKindNone(s: seq<Finding>, k: Kind)
    requires forall i :: 0 <= i < |s| ==> s[i].kind != k
    ensures CountKind(s, k) == 0
    decreases |s|
  {
    if |s| > 0 {
      CountKindNone(s[1..], k);
    }
  }

  /** How many findings of kind `k` a bucket holds. */
  function CountKind(s: seq<Finding>, k: Kind): nat {
    |FilterKind(s, k)|
  }

  /** Filtering distributes over concatenation, so each stage of the ladder can be read off separately. */
  lemma {:induction false} FilterKindAppend(a: seq<Finding>, b: seq<Finding>, k: Kind)
    ensures FilterKind(a + b, k) == FilterKind(a, k) + FilterKind(b, k)
    decreases |a|
  {
    if |a| > 0 {
      assert (a + b)[1..] == a[1..] + b;
      FilterKindAppend(a[1..], b, k);
    } else {
      assert a + b == b;
    }
  }

  /** Counting distributes over concatenation. */
  lemma CountKindAppend(a: seq<Finding>, b: seq<Finding>, k: Kind)
    ensures CountKind(a + b, k) == CountKind(a, k) + CountKind(b, k)
  {
    FilterKindAppend(a, b, k);
  }

  /** A bucket made only of kind `k` is its own filter. */
  lemma {:induction false} FilterKindAll(s: seq<Finding>, k: Kind)
    requires forall i :: 0 <= i < |s| ==> s[i].kind == k
    ensures FilterKind(s, k) == s
    decreases |s|
  {
    if |s| > 0 {
      FilterKindAll(s[1..], k);
    }
  }
}

/** First-match-wins search, the shape of every `foreach ... break` in the diagnostics. */
module Search {
  import opened Optional

  /** The index of the first element satisfying `p`, or None when no element does. */
  function FirstWhere<T>(s: seq<T>, p: T -> bool): (r: Option<nat>)
    ensures r.Some? ==> r.value < |s| && p(s[r.value])
    ensures r.Some? ==> forall j :: 0 <= j < r.value ==> !p(s[j])
    ensures r.None? <==> forall j :: 0 <= j < |s| ==> !p(s[j])
    decreases |s|
  {
    if |s| == 0 then None
    else if p(s[0]) then Some(0)
    else match FirstWhere(s[1..], p)
      case None => None
      case Some(k) => Some(k + 1)
  }
}

=== FILE: ladder.dfy ===
/**
 The classification ladder (`get_categorized_diagnostics`): the state of the
 site is read once, and the findings are appended to the three buckets in a
 fixed order. A missing, inactive or unconnected Jetpack stops the ladder
 with a single failure; otherwise every stage runs and plugin conflicts are
 routed last, by severity.
 */
module Ladder {
  import opened Strings
  import opened Optional
  import opened Search
  import opened Findings
  import opened Probes
  import opened Environment
  import opened Conflicts

  /**
   Everything the ladder asks its host for, already answered. Each field
   stands for one host call of the source: the plugin file check, the active
   check, the connection test, the two token options, the two HTTP probes
   (with JSON decoding replaced by the decoded element count, see
   `ClassifyRest`), the blog id and master user options, the lines of the
   connection health check, `home_url()` and `is_ssl()`, the staging,
   development and debug switches, the plugin header's version (None when
   the header cannot be read), the outcome of `version_compare($v, '11.0',
   '<')`, and the display names of the active plugins that exist on disk.
   */
  datatype SiteState = SiteState(
    installed: bool,
    active: bool,
    connected: bool,
    blogToken: bool,
    userToken: bool,
    restResponse: HttpOutcome,
    restDecoded: Option<nat>,
    xmlrpcEnabled: bool,
    xmlrpcResponse: HttpOutcome,
    hasBlogId: bool,
    hasMasterUser: bool,
    healthLines: seq<string>,
    siteUrl: string,
    isSsl: bool,
    stagingSite: bool,
    developmentMode: bool,
    debugMode: bool,
    jetpackVersion: Option<string>,
    versionOutdated: bool,
    activePlugins: seq<string>)

  // The findings whose message never varies, with the source's messages.
  const NotInstalledFailure := Finding(NotInstalled, "Jetpack plugin is not installed")
  const NotActiveFailure := Finding(NotActive, "Jetpack plugin is not activated")
  const NotConnectedFailure := Finding(NotConnected, "Site is not connected to WordPress.com")
  const BlogTokenFailure := Finding(BlogToken, "Blog token is missing \U{2013} site authentication failed")
  const UserTokenFailure := Finding(UserToken, "User token is missing \U{2013} user authentication failed")
  const RestApiFailure := Finding(RestApi, "REST API is completely unavailable")
  const RestApiPartialIssue := Finding(RestApiPartial, "REST API responding but returning invalid data")
  const XmlrpcFailure := Finding(Xmlrpc, "XML-RPC is disabled or blocked \U{2013} many Jetpack features will not work")
  const XmlrpcErrorIssue := Finding(XmlrpcError, "XML-RPC responding but with errors")
  const MissingBlogIdIssue := Finding(MissingBlogId, "Blog ID is missing from connection data")
  const MissingMasterUserIssue := Finding(MissingMasterUser, "Master user is not detected")
  const ConnectionTestIssue := Finding(ConnectionTest, "Connection health test failed")
  const StagingSiteNotice := Finding(StagingSite, "Site is detected as a staging environment")
  const DevelopmentModeNotice := Finding(DevelopmentMode, "Jetpack is running in development mode")
  const DebugModeNotice := Finding(DebugMode, "WordPress debug mode is enabled")

  /** The ladder gets past its three early exits. */
  predicate Reached(st: SiteState) {
    st.installed && st.active && st.connected
  }

  /** PHP truthiness of a string: everything but "" and "0". */
  predicate PhpTruthy(s: string) {
    s != "" && s != "0"
  }

  /** The failure that ends the ladder early, if one does: the first of the three checks that fails. */
  function EarlyExit(st: SiteState): (r: Option<Finding>)
    ensures r.None? <==> Reached(st)
    ensures !st.installed ==> r == Some(NotInstalledFailure)
    ensures st.installed && !st.active ==> r == Some(NotActiveFailure)
    ensures st.installed && st.active && !st.connected ==> r == Some(NotConnectedFailure)
  {
    if !st.installed then Some(NotInstalledFailure)
    else if !st.active then Some(NotActiveFailure)
    else if !st.connected then Some(NotConnectedFailure)
    else None
  }

  /** One guarded append of the ladder: the finding when the condition holds, nothing otherwise. */
  function Emit(cond: bool, f: Finding): (r: seq<Finding>)
    ensures |r| <= 1
    ensures |r| == 1 <==> cond
    ensures cond ==> r[0] == f
  {
    if cond then [f] else []
  }

  /** What one guarded append contributes to the count of kind `k`. */
  function Hit(cond: bool, f: Finding, k: Kind): nat {
    if cond && f.kind == k then 1 else 0
  }

  lemma EmitCount(cond: bool, f: Finding, k: Kind)
    ensures CountKind(Emit(cond, f), k) == Hit(cond, f, k)
  {
  }

  /** Failed, Blocked and Disabled all count as a broken XML-RPC endpoint. */
  predicate XmlrpcBroken(s: XmlrpcStatus) {
    s == XmlrpcFailed || s == Blocked || s == Disabled
  }

  /** A health line reports a failure when "Failed" occurs anywhere in it. */
  predicate HealthLineFailed(line: string) {
    Contains(line, "Failed")
  }

  /**
   The health-check loop: it stops at the first failing line, so it reports
   whether there is one.
   */
  function HealthFailed(lines: seq<string>): (r: bool)
    ensures r <==> exists i :: 0 <= i < |lines| && HealthLineFailed(lines[i])
  {
    FirstWhere(lines, HealthLineFailed).Some?
  }

  function OldVersionNotice(version: string): (f: Finding)
    ensures f.kind == OldVersion && IsPrefix("Jetpack version " + version, f.message)
  {
    Finding(OldVersion, "Jetpack version " + version + " may be outdated - consider updating")
  }

  /** The old-version notice: only for a truthy version string that compares below 11.0. */
  function VersionNotices(version: Option<string>, outdated: bool): (r: seq<Finding>)
    ensures |r| <= 1
    ensures |r| == 1 <==> version.Some? && PhpTruthy(version.value) && outdated
    ensures |r| == 1 ==> r[0] == OldVersionNotice(version.value)
  {
    match version
    case None => []
    case Some(v) => Emit(PhpTruthy(v) && outdated, OldVersionNotice(v))
  }

  /**
   The findings the conflicts of severity `sev` become, in plugin order: kind
   `plugin_conflict` and the conflict's message.
   */
  function ConflictFindings(cs: seq<Conflict>, sev: Severity): (r: seq<Finding>)
    ensures |r| == |WithSeverity(cs, sev)|
    ensures forall i :: 0 <= i < |r| ==> r[i].kind == PluginConflict
    decreases |cs|
  {
    if |cs| == 0 then []
    else Emit(cs[0].severity == sev, Finding(PluginConflict, cs[0].message)) + ConflictFindings(cs[1..], sev)
  }

  /** The conflict findings carry the messages of the conflicts of that severity, one for one and in order. */
  lemma {:induction false} ConflictFindingsMessages(cs: seq<Conflict>, sev: Severity)
    ensures forall i :: 0 <= i < |ConflictFindings(cs, sev)| ==>
      ConflictFindings(cs, sev)[i] == Finding(PluginConflict, WithSeverity(cs, sev)[i].message)
    decreases |cs|
  {
    if |cs| > 0 {
      ConflictFindingsMessages(cs[1..], sev);
    }
  }

  /** The bucket a conflict of severity `sev` is filed under. */
  function Home(sev: Severity): Tier {
    match sev
    case Critical => FailureTier
    case Warning => IssueTier
    case Notice => NoticeTier
  }

  /** One turn of the conflict loop: a critical conflict is a failure, a warning an issue, the rest notices. */
  function Route(b: Buckets, c: Conflict): Buckets {
    b.Add(Home(c.severity), Finding(PluginConflict, c.message))
  }

  /**
   The conflict loop, one conflict after the other in plugin order: every
   conflict adds exactly one finding, and no bucket loses any.
   */
  function RouteConflicts(b: Buckets, cs: seq<Conflict>): (r: Buckets)
    ensures |r.failures| + |r.issues| + |r.notices| == |b.failures| + |b.issues| + |b.notices| + |cs|
    ensures |b.failures| <= |r.failures| && |b.issues| <= |r.issues| && |b.notices| <= |r.notices|
    decreases |cs|
  {
    if |cs| == 0 then b else RouteConflicts(Route(b, cs[0]), cs[1..])
  }

  /** One conflict lengthens the bucket of its severity by one finding and leaves the others alone. */
  lemma RouteAddsOne(b: Buckets, c: Conflict, sev: Severity)
    ensures Route(b, c).Of(Home(sev)) == b.Of(Home(sev)) + Emit(c.severity == sev, Finding(PluginConflict, c.message))
  {
    match sev
    case Critical =>
    case Warning =>
    case Notice =>
  }

  /**
   The conflict loop is the same as appending to each bucket the conflicts of
   the severity that bucket receives, in plugin order.
   */
  lemma {:induction false} RouteConflictsSplits(b: Buckets, cs: seq<Conflict>, sev: Severity)
    ensures RouteConflicts(b, cs).Of(Home(sev)) == b.Of(Home(sev)) + ConflictFindings(cs, sev)
    decreases |cs|
  {
    if |cs| == 0 {
      assert ConflictFindings(cs, sev) == [];
    } else {
      var next := Route(b, cs[0]);
      var added := Emit(cs[0].severity == sev, Finding(PluginConflict, cs[0].message));
      var later := ConflictFindings(cs[1..], sev);
      RouteAddsOne(b, cs[0], sev);
      RouteConflictsSplits(next, cs[1..], sev);
      assert RouteConflicts(b, cs) == RouteConflicts(next, cs[1..]);
      assert ConflictFindings(cs, sev) == added + later;
      RegroupFindings(b.Of(Home(sev)), added, later, next.Of(Home(sev)));
    }
  }

  lemma RegroupFindings(x: seq<Finding>, y: seq<Finding>, z: seq<Finding>, xy: seq<Finding>)
    requires xy == x + y
    ensures xy + z == x + (y + z)
  {
  }

  /**
   What the ladder learns from the parts of the diagnostics modelled on their
   own: the verdicts of the two probes, the lines `check_connection_issues`
   returns, and the conflicts of the plugin scanner.
   */
  datatype Observations = Observations(
    rest: RestStatus,
    xmlrpc: XmlrpcStatus,
    environmentLines: seq<string>,
    conflicts: seq<Conflict>)

  /**
   The observations the source makes of a site, with the plugin scanner
   run over the conflict table `rules`: `SourceRules` as the source lists
   it, or `KnownConflicts` in the corrected order.
   */
  function Observe(st: SiteState, rules: seq<Entry>): (r: Observations)
    ensures |r.conflicts| <= |st.activePlugins|
    ensures ParseEnvironmentLines(r.environmentLines) ==
      (if LooksLocal(st.siteUrl) then [Finding(Environment, LocalhostMessage)] else [])
      + (if !st.isSsl then [Finding(EnvNotice, HttpsMessage)] else [])
      + (match StagingIndicator(st.siteUrl)
         case None => []
         case Some(ind) => [Finding(Environment, StagingMessage(ind))])
  {
    EnvironmentNoticesRoundTrip(st.siteUrl, st.isSsl);
    Observations(
      ClassifyRest(st.restResponse, st.restDecoded).status,
      ClassifyXmlrpc(st.xmlrpcEnabled, st.xmlrpcResponse).status,
      ConnectionIssueLines(st.siteUrl, st.isSsl),
      ScanPlugins(rules, st.activePlugins))
  }

  /** The failures of a connected site, stage by stage: tokens, then the REST probe, then XML-RPC. */
  function FailureStages(st: SiteState, obs: Observations): (r: seq<Finding>)
    ensures |r| <= 4
    ensures r == [] <==> st.blogToken && st.userToken && obs.rest != RestFailed && !XmlrpcBroken(obs.xmlrpc)
  {
    Emit(!st.blogToken, BlogTokenFailure) + Emit(!st.userToken, UserTokenFailure) +
    Emit(obs.rest == RestFailed, RestApiFailure) + Emit(XmlrpcBroken(obs.xmlrpc), XmlrpcFailure)
  }

  /** The issues of a connected site: the two probes, the connection details, then the health check. */
  function IssueStages(st: SiteState, obs: Observations): (r: seq<Finding>)
    ensures |r| <= 5
    ensures r == [] <==> obs.rest != PartialSuccess && obs.xmlrpc != AvailableButError &&
                         st.hasBlogId && st.hasMasterUser && !HealthFailed(st.healthLines)
  {
    Emit(obs.rest == PartialSuccess, RestApiPartialIssue) + Emit(obs.xmlrpc == AvailableButError, XmlrpcErrorIssue) +
    Emit(!st.hasBlogId, MissingBlogIdIssue) + Emit(!st.hasMasterUser, MissingMasterUserIssue) +
    Emit(HealthFailed(st.healthLines), ConnectionTestIssue)
  }

  /** The notices about the site itself: the staging, development and debug switches, then the version. */
  function SiteNotices(st: SiteState): (r: seq<Finding>)
    ensures |r| <= 4
    ensures r == [] <==> !st.stagingSite && !st.developmentMode && !st.debugMode && !VersionOutdated(st)
  {
    Emit(st.stagingSite, StagingSiteNotice) + Emit(st.developmentMode, DevelopmentModeNotice) +
    Emit(st.debugMode, DebugModeNotice) + VersionNotices(st.jetpackVersion, st.versionOutdated)
  }

  /** The notices of a connected site: the environment lines, then the notices about the site. */
  function NoticeStages(st: SiteState, obs: Observations): (r: seq<Finding>)
    ensures |ParseEnvironmentLines(obs.environmentLines)| <= |r| <= |obs.environmentLines| + 4
  {
    ParseEnvironmentLines(obs.environmentLines) + SiteNotices(st)
  }

  /** The buckets of a connected site before the conflicts are routed. */
  function Stages(st: SiteState, obs: Observations): Buckets {
    Buckets(FailureStages(st, obs), IssueStages(st, obs), NoticeStages(st, obs))
  }

  /**
   The ladder over given observations. Before the connection is established
   it stops with exactly one failure, the first of the three checks that
   fails, and nothing else.
   */
  function CategorizeWith(st: SiteState, obs: Observations): (r: Buckets)
    ensures !Reached(st) ==> |r.failures| == 1 && r.issues == [] && r.notices == []
    ensures !st.installed ==> r.failures[0] == NotInstalledFailure
    ensures st.installed && !st.active ==> r.failures[0] == NotActiveFailure
    ensures st.installed && st.active && !st.connected ==> r.failures[0] == NotConnectedFailure
  {
    match EarlyExit(st)
    case Some(f) => Buckets([f], [], [])
    case None => RouteConflicts(Stages(st, obs), obs.conflicts)
  }

  /**
   `get_categorized_diagnostics`: the ladder over what the source observes
   of the site, with the conflicts scanned over `rules`. With `SourceRules`
   this is the source as written; with `KnownConflicts`, the corrected
   order. Every bucket holds only the kinds that belong in it, and past the
   early exits the plugin conflicts of each bucket are exactly the scanned
   conflicts of its severity.
   */
  function Categorize(st: SiteState, rules: seq<Entry>): (r: Buckets)
    ensures FiledUnder(r.failures, FailureTier) && FiledUnder(r.issues, IssueTier) && FiledUnder(r.notices, NoticeTier)
    ensures Reached(st) ==>
      FilterKind(r.failures, PluginConflict) == ConflictFindings(ScanPlugins(rules, st.activePlugins), Critical) &&
      FilterKind(r.issues, PluginConflict) == ConflictFindings(ScanPlugins(rules, st.activePlugins), Warning) &&
      FilterKind(r.notices, PluginConflict) == ConflictFindings(ScanPlugins(rules, st.activePlugins), Notice)
  {
    var obs := Observe(st, rules);
    CategorizeFacts(st, obs, ScanPlugins(rules, st.activePlugins));
    CategorizeWith(st, obs)
  }

  lemma CategorizeFacts(st: SiteState, obs: Observations, cs: seq<Conflict>)
    requires obs.conflicts == cs
    ensures var r := CategorizeWith(st, obs);
      FiledUnder(r.failures, FailureTier) && FiledUnder(r.issues, IssueTier) && FiledUnder(r.notices, NoticeTier)
    ensures var r := CategorizeWith(st, obs);
      Reached(st) ==>
        FilterKind(r.failures, PluginConflict) == ConflictFindings(cs, Critical) &&
        FilterKind(r.issues, PluginConflict) == ConflictFindings(cs, Warning) &&
        FilterKind(r.notices, PluginConflict) == ConflictFindings(cs, Notice)
  {
    BucketsFiled(st, obs, Critical);
    BucketsFiled(st, obs, Warning);
    BucketsFiled(st, obs, Notice);
    if Reached(st) {
      ConflictRouting(st, obs, Critical);
      ConflictRouting(st, obs, Warning);
      ConflictRouting(st, obs, Notice);
    }
  }

  /**
   Past the early exits, each bucket is its stages in source order followed
   by the conflicts of the severity it receives, in plugin order.
   */
  lemma ConnectedBucket(st: SiteState, obs: Observations, sev: Severity)
    requires Reached(st)
    ensures CategorizeWith(st, obs).Of(Home(sev)) == Stages(st, obs).Of(Home(sev)) + ConflictFindings(obs.conflicts, sev)
  {
    RouteConflictsSplits(Stages(st, obs), obs.conflicts, sev);
  }

  /** The version notice is due: a truthy version string that compares below 11.0. */
  predicate VersionOutdated(st: SiteState) {
    st.jetpackVersion.Some? && PhpTruthy(st.jetpackVersion.value) && st.versionOutdated
  }

  /**
   How many findings of kind `k` the checks of a connected site raise,
   kind by kind and independent of the order of the ladder: the reference
   the buckets are measured against. Plugin conflicts are counted apart.
   */
  function Raised(st: SiteState, obs: Observations, k: Kind): nat {
    match k
    case NotInstalled | NotActive | NotConnected | PluginConflict => 0
    case BlogToken => if st.blogToken then 0 else 1
    case UserToken => if st.userToken then 0 else 1
    case RestApi => if obs.rest == RestFailed then 1 else 0
    case Xmlrpc => if XmlrpcBroken(obs.xmlrpc) then 1 else 0
    case RestApiPartial => if obs.rest == PartialSuccess then 1 else 0
    case XmlrpcError => if obs.xmlrpc == AvailableButError then 1 else 0
    case MissingBlogId => if st.hasBlogId then 0 else 1
    case MissingMasterUser => if st.hasMasterUser then 0 else 1
    case ConnectionTest => if HealthFailed(st.healthLines) then 1 else 0
    case Environment | EnvNotice => CountKind(ParseEnvironmentLines(obs.environmentLines), k)
    case StagingSite => if st.stagingSite then 1 else 0
    case DevelopmentMode => if st.developmentMode then 1 else 0
    case DebugMode => if st.debugMode then 1 else 0
    case OldVersion => if VersionOutdated(st) then 1 else 0
  }

  /** What bucket `t` of a connected site holds of kind `k` before the conflicts: what is raised, if `k` belongs there. */
  ghost predicate StagedCount(s: seq<Finding>, st: SiteState, obs: Observations, k: Kind, t: Tier) {
    CountKind(s, k) == if BelongsIn(k, t) then Raised(st, obs, k) else 0
  }

  lemma FailureStagesCount(st: SiteState, obs: Observations, k: Kind)
    ensures StagedCount(FailureStages(st, obs), st, obs, k, FailureTier)
  {
    var f1, f2 := Emit(!st.blogToken, BlogTokenFailure), Emit(!st.userToken, UserTokenFailure);
    var f3, f4 := Emit(obs.rest == RestFailed, RestApiFailure), Emit(XmlrpcBroken(obs.xmlrpc), XmlrpcFailure);
    CountKindAppend(f1, f2, k);
    CountKindAppend(f1 + f2, f3, k);
    CountKindAppend(f1 + f2 + f3, f4, k);
    EmitCount(!st.blogToken, BlogTokenFailure, k);
    EmitCount(!st.userToken, UserTokenFailure, k);
    EmitCount(obs.rest == RestFailed, RestApiFailure, k);
    EmitCount(XmlrpcBroken(obs.xmlrpc), XmlrpcFailure, k);
    FailureTally(st, obs, k);
  }

  lemma FailureTally(st: SiteState, obs: Observations, k: Kind)
    ensures Hit(!st.blogToken, BlogTokenFailure, k) + Hit(!st.userToken, UserTokenFailure, k) +
            Hit(obs.rest == RestFailed, RestApiFailure, k) + Hit(XmlrpcBroken(obs.xmlrpc), XmlrpcFailure, k) ==
            if BelongsIn(k, FailureTier) then Raised(st, obs, k) else 0
  {
  }

  lemma IssueStagesCount(st: SiteState, obs: Observations, k: Kind)
    ensures StagedCount(IssueStages(st, obs), st, obs, k, IssueTier)
  {
    var i1, i2 := Emit(obs.rest == PartialSuccess, RestApiPartialIssue), Emit(obs.xmlrpc == AvailableButError, XmlrpcErrorIssue);
    var i3, i4 := Emit(!st.hasBlogId, MissingBlogIdIssue), Emit(!st.hasMasterUser, MissingMasterUserIssue);
    var i5 := Emit(HealthFailed(st.healthLines), ConnectionTestIssue);
    CountKindAppend(i1, i2, k);
    CountKindAppend(i1 + i2, i3, k);
    CountKindAppend(i1 + i2 + i3, i4, k);
    CountKindAppend(i1 + i2 + i3 + i4, i5, k);
    EmitCount(obs.rest == PartialSuccess, RestApiPartialIssue, k);
    EmitCount(obs.xmlrpc == AvailableButError, XmlrpcErrorIssue, k);
    EmitCount(!st.hasBlogId, MissingBlogIdIssue, k);
    EmitCount(!st.hasMasterUser, MissingMasterUserIssue, k);
    EmitCount(HealthFailed(st.healthLines), ConnectionTestIssue, k);
    IssueTally(st, obs, k);
  }

  lemma IssueTally(st: SiteState, obs: Observations, k: Kind)
    ensures Hit(obs.rest == PartialSuccess, RestApiPartialIssue, k) + Hit(obs.xmlrpc == AvailableButError, XmlrpcErrorIssue, k) +
            Hit(!st.hasBlogId, MissingBlogIdIssue, k) + Hit(!st.hasMasterUser, MissingMasterUserIssue, k) +
            Hit(HealthFailed(st.healthLines), ConnectionTestIssue, k) ==
            if BelongsIn(k, IssueTier) then Raised(st, obs, k) else 0
  {
  }

  lemma NoticeStagesCount(st: SiteState, obs: Observations, k: Kind)
    ensures StagedCount(NoticeStages(st, obs), st, obs, k, NoticeTier)
  {
    var env := ParseEnvironmentLines(obs.environmentLines);
    var n2, n3 := Emit(st.stagingSite, StagingSiteNotice), Emit(st.developmentMode, DevelopmentModeNotice);
    var n4, n5 := Emit(st.debugMode, DebugModeNotice), VersionNotices(st.jetpackVersion, st.versionOutdated);
    CountKindAppend(env, SiteNotices(st), k);
    CountKindAppend(n2, n3, k);
    CountKindAppend(n2 + n3, n4, k);
    CountKindAppend(n2 + n3 + n4, n5, k);
    EmitCount(st.stagingSite, StagingSiteNotice, k);
    EmitCount(st.developmentMode, DevelopmentModeNotice, k);
    EmitCount(st.debugMode, DebugModeNotice, k);
    VersionNoticesCount(st.jetpackVersion, st.versionOutdated, k);
    if k != Environment && k != EnvNotice {
      CountKindNone(env, k);
    }
    NoticeTally(st, obs, k);
  }

  lemma NoticeTally(st: SiteState, obs: Observations, k: Kind)
    ensures (if k == Environment || k == EnvNotice then CountKind(ParseEnvironmentLines(obs.environmentLines), k) else 0) +
            Hit(st.stagingSite, StagingSiteNotice, k) + Hit(st.developmentMode, DevelopmentModeNotice, k) +
            Hit(st.debugMode, DebugModeNotice, k) + (if k == OldVersion && VersionOutdated(st) then 1 else 0) ==
            if BelongsIn(k, NoticeTier) then Raised(st, obs, k) else 0
  {
  }

  lemma VersionNoticesCount(version: Option<string>, outdated: bool, k: Kind)
    ensures CountKind(VersionNotices(version, outdated), k) ==
      if k == OldVersion && version.Some? && PhpTruthy(version.value) && outdated then 1 else 0
  {
    match version
    case None =>
    case Some(v) => EmitCount(PhpTruthy(v) && outdated, OldVersionNotice(v), k);
  }

  /**
   Past the early exits, every kind other than `plugin_conflict` appears in
   the bucket it belongs in exactly as often as it is raised, and in no other
   bucket.
   */
  lemma KindRouting(st: SiteState, obs: Observations, sev: Severity, k: Kind)
    requires Reached(st) && k != PluginConflict
    ensures StagedCount(CategorizeWith(st, obs).Of(Home(sev)), st, obs, k, Home(sev))
  {
    ConnectedBucket(st, obs, sev);
    CountKindAppend(Stages(st, obs).Of(Home(sev)), ConflictFindings(obs.conflicts, sev), k);
    CountKindNone(ConflictFindings(obs.conflicts, sev), k);
    match sev
    case Critical => FailureStagesCount(st, obs, k);
    case Warning => IssueStagesCount(st, obs, k);
    case Notice => NoticeStagesCount(st, obs, k);
  }

  /** Past the early exits, plugin conflicts reach a bucket only through the conflict loop. */
  lemma ConflictRouting(st: SiteState, obs: Observations, sev: Severity)
    requires Reached(st)
    ensures FilterKind(CategorizeWith(st, obs).Of(Home(sev)), PluginConflict) == ConflictFindings(obs.conflicts, sev)
  {
    var stages := Stages(st, obs).Of(Home(sev));
    ConnectedBucket(st, obs, sev);
    FilterKindAppend(stages, ConflictFindings(obs.conflicts, sev), PluginConflict);
    FilterKindAll(ConflictFindings(obs.conflicts, sev), PluginConflict);
    StagesRaiseNoConflict(st, obs, sev);
  }

  /** No stage of the ladder raises a plugin conflict. */
  lemma StagesRaiseNoConflict(st: SiteState, obs: Observations, sev: Severity)
    ensures FilterKind(Stages(st, obs).Of(Home(sev)), PluginConflict) == []
  {
    match sev
    case Critical => FailureStagesCount(st, obs, PluginConflict);
    case Warning => IssueStagesCount(st, obs, PluginConflict);
    case Notice => NoticeStagesCount(st, obs, PluginConflict);
  }

  /** Every bucket holds only the kinds that belong in it. */
  lemma BucketsFiled(st: SiteState, obs: Observations, sev: Severity)
    ensures FiledUnder(CategorizeWith(st, obs).Of(Home(sev)), Home(sev))
  {
    var s := CategorizeWith(st, obs).Of(Home(sev));
    if Reached(st) {
      forall i | 0 <= i < |s|
        ensures BelongsIn(s[i].kind, Home(sev))
      {
        CountKindPositive(s, i);
        if s[i].kind != PluginConflict {
          KindRouting(st, obs, sev, s[i].kind);
        }
      }
    }
  }

  /**
   At most one `connection_test` issue is raised, however many health lines
   fail, and one is raised exactly when the ladder is reached and some line
   reports a failure.
   */
  lemma ConnectionTestOnce(st: SiteState, obs: Observations)
    ensures CountKind(CategorizeWith(st, obs).issues, ConnectionTest) <= 1
    ensures CountKind(CategorizeWith(st, obs).issues, ConnectionTest) == 1 <==>
      Reached(st) && exists i :: 0 <= i < |st.healthLines| && HealthLineFailed(st.healthLines[i])
  {
    if Reached(st) {
      KindRouting(st, obs, Warning, ConnectionTest);
    } else {
      assert CategorizeWith(st, obs).issues == [];
    }
  }

  /** Past the early exits, the notices open with the parsed environment lines, in their order. */
  lemma EnvironmentFirst(st: SiteState, obs: Observations)
    requires Reached(st)
    ensures var env := ParseEnvironmentLines(obs.environmentLines);
      |env| <= |CategorizeWith(st, obs).notices| && CategorizeWith(st, obs).notices[..|env|] == env
  {
    ConnectedBucket(st, obs, Notice);
    OpensWith(ParseEnvironmentLines(obs.environmentLines), SiteNotices(st), ConflictFindings(obs.conflicts, Notice));
  }

  lemma OpensWith(a: seq<Finding>, b: seq<Finding>, c: seq<Finding>)
    ensures |a| <= |a + b + c| && (a + b + c)[..|a|] == a
  {
    assert a + b + c == a + (b + c);
  }

  /** None of the checks behind a failure fires, and no critical conflict is found. */
  predicate NoFailureRaised(st: SiteState, obs: Observations) {
    st.blogToken && st.userToken && obs.rest != RestFailed && !XmlrpcBroken(obs.xmlrpc) &&
    forall i :: 0 <= i < |obs.conflicts| ==> obs.conflicts[i].severity != Critical
  }

  /** None of the checks behind an issue fires, and no warning-level conflict is found. */
  predicate NoIssueRaised(st: SiteState, obs: Observations) {
    obs.rest != PartialSuccess && obs.xmlrpc != AvailableButError && st.hasBlogId && st.hasMasterUser &&
    !HealthFailed(st.healthLines) && forall i :: 0 <= i < |obs.conflicts| ==> obs.conflicts[i].severity != Warning
  }

  /** The failures are empty exactly when the ladder is reached and nothing fails. */
  lemma NoFailuresIff(st: SiteState, obs: Observations)
    ensures CategorizeWith(st, obs).failures == [] <==> Reached(st) && NoFailureRaised(st, obs)
  {
    NoneOfSeverity(obs.conflicts, Critical);
    if Reached(st) {
      ConnectedBucket(st, obs, Critical);
      assert |FailureStages(st, obs)| == |Emit(!st.blogToken, BlogTokenFailure)| + |Emit(!st.userToken, UserTokenFailure)| +
        |Emit(obs.rest == RestFailed, RestApiFailure)| + |Emit(XmlrpcBroken(obs.xmlrpc), XmlrpcFailure)|;
    }
  }

  /** Past the early exits, the issues are empty exactly when nothing degrades. */
  lemma NoIssuesIff(st: SiteState, obs: Observations)
    requires Reached(st)
    ensures CategorizeWith(st, obs).issues == [] <==> NoIssueRaised(st, obs)
  {
    NoneOfSeverity(obs.conflicts, Warning);
    ConnectedBucket(st, obs, Warning);
    assert |IssueStages(st, obs)| == |Emit(obs.rest == PartialSuccess, RestApiPartialIssue)| +
      |Emit(obs.xmlrpc == AvailableButError, XmlrpcErrorIssue)| + |Emit(!st.hasBlogId, MissingBlogIdIssue)| +
      |Emit(!st.hasMasterUser, MissingMasterUserIssue)| + |Emit(HealthFailed(st.healthLines), ConnectionTestIssue)|;
  }

  /**
   Where a kind stands in the order its bucket is filled: the order of the
   stages that raise it, with the environment lines first among the notices
   and the plugin conflicts last in every bucket. The early-exit kinds never
   share a bucket with another finding.
   */
  function Rank(k: Kind): nat {
    match k
    case NotInstalled | NotActive | NotConnected => 0
    case BlogToken | RestApiPartial | Environment | EnvNotice => 0
    case UserToken | XmlrpcError | StagingSite => 1
    case RestApi | MissingBlogId | DevelopmentMode => 2
    case Xmlrpc | MissingMasterUser | DebugMode => 3
    case ConnectionTest | OldVersion => 4
    case PluginConflict => 5
  }

  /** No finding of `s` comes after one the ladder appends later. */
  predicate InLadderOrder(s: seq<Finding>) {
    forall i, j :: 0 <= i < j < |s| ==> Rank(s[i].kind) <= Rank(s[j].kind)
  }

  /** Every finding of `s` has a rank between `lo` and `hi`. */
  predicate RanksBetween(s: seq<Finding>, lo: nat, hi: nat) {
    forall i :: 0 <= i < |s| ==> lo <= Rank(s[i].kind) <= hi
  }

  lemma EmitRanked(cond: bool, f: Finding, rank: nat)
    requires Rank(f.kind) == rank
    ensures InLadderOrder(Emit(cond, f)) && RanksBetween(Emit(cond, f), rank, rank)
  {
  }

  lemma VersionNoticesRanked(version: Option<string>, outdated: bool)
    ensures InLadderOrder(VersionNotices(version, outdated)) && RanksBetween(VersionNotices(version, outdated), 4, 4)
  {
  }

  lemma EnvironmentRanked(env: seq<Finding>)
    requires forall i :: 0 <= i < |env| ==> env[i].kind == Environment || env[i].kind == EnvNotice
    ensures InLadderOrder(env) && RanksBetween(env, 0, 0)
  {
  }

  /** Four runs in ladder order with rising ranks make one run in ladder order. */
  lemma OrderedRun4(a: seq<Finding>, b: seq<Finding>, c: seq<Finding>, d: seq<Finding>, ra: nat, rb: nat, rc: nat, rd: nat)
    requires ra <= rb <= rc <= rd
    requires InLadderOrder(a) && RanksBetween(a, ra, ra) && InLadderOrder(b) && RanksBetween(b, rb, rb)
    requires InLadderOrder(c) && RanksBetween(c, rc, rc) && InLadderOrder(d) && RanksBetween(d, rd, rd)
    ensures InLadderOrder(a + b + c + d) && RanksBetween(a + b + c + d, ra, rd)
  {
    Widen(b, rb, rb, ra, rb);
    OrderedAppend(a, b, ra, ra, rb);
    Widen(c, rc, rc, rb, rc);
    OrderedAppend(a + b, c, ra, rb, rc);
    Widen(d, rd, rd, rc, rd);
    OrderedAppend(a + b + c, d, ra, rc, rd);
  }

  /** Three guarded appends in rising rank, then a run of the next rank, in ladder order. */
  lemma EmitRun(c1: bool, f1: Finding, c2: bool, f2: Finding, c3: bool, f3: Finding, d: seq<Finding>,
                r1: nat, r2: nat, r3: nat, r4: nat)
    requires r1 <= r2 <= r3 <= r4 && Rank(f1.kind) == r1 && Rank(f2.kind) == r2 && Rank(f3.kind) == r3
    requires InLadderOrder(d) && RanksBetween(d, r4, r4)
    ensures InLadderOrder(Emit(c1, f1) + Emit(c2, f2) + Emit(c3, f3) + d)
    ensures RanksBetween(Emit(c1, f1) + Emit(c2, f2) + Emit(c3, f3) + d, r1, r4)
  {
    EmitRanked(c1, f1, r1);
    EmitRanked(c2, f2, r2);
    EmitRanked(c3, f3, r3);
    OrderedRun4(Emit(c1, f1), Emit(c2, f2), Emit(c3, f3), d, r1, r2, r3, r4);
  }

  lemma Widen(s: seq<Finding>, lo: nat, hi: nat, lo': nat, hi': nat)
    requires RanksBetween(s, lo, hi) && lo' <= lo && hi <= hi'
    ensures RanksBetween(s, lo', hi')
  {
  }

  /** Two runs in ladder order, the first ranked no higher than the second, make one run in ladder order. */
  lemma OrderedAppend(a: seq<Finding>, b: seq<Finding>, lo: nat, mid: nat, hi: nat)
    requires lo <= mid <= hi
    requires InLadderOrder(a) && RanksBetween(a, lo, mid)
    requires InLadderOrder(b) && RanksBetween(b, mid, hi)
    ensures InLadderOrder(a + b) && RanksBetween(a + b, lo, hi)
  {
    var s := a + b;
    forall i, j | 0 <= i < j < |s|
      ensures Rank(s[i].kind) <= Rank(s[j].kind)
    {
      if j < |a| {
        assert s[i] == a[i] && s[j] == a[j];
      } else if i < |a| {
        assert s[i] == a[i] && s[j] == b[j - |a|];
      } else {
        assert s[i] == b[i - |a|] && s[j] == b[j - |a|];
      }
    }
    forall i | 0 <= i < |s|
      ensures lo <= Rank(s[i].kind) <= hi
    {
      if i < |a| {
        assert s[i] == a[i];
      } else {
        assert s[i] == b[i - |a|];
      }
    }
  }

  /**
   The failures come in the order of the ladder: blog token, user token,
   REST API, XML-RPC.
   */
  lemma FailureStagesOrdered(st: SiteState, obs: Observations)
    ensures InLadderOrder(FailureStages(st, obs)) && RanksBetween(FailureStages(st, obs), 0, 3)
  {
    EmitRanked(XmlrpcBroken(obs.xmlrpc), XmlrpcFailure, 3);
    EmitRun(!st.blogToken, BlogTokenFailure, !st.userToken, UserTokenFailure, obs.rest == RestFailed, RestApiFailure,
      Emit(XmlrpcBroken(obs.xmlrpc), XmlrpcFailure), 0, 1, 2, 3);
  }

  /**
   The issues come in the order of the ladder: partial REST API, XML-RPC
   errors, blog id, master user, connection test.
   */
  lemma IssueStagesOrdered(st: SiteState, obs: Observations)
    ensures InLadderOrder(IssueStages(st, obs)) && RanksBetween(IssueStages(st, obs), 0, 4)
  {
    var i4 := Emit(!st.hasMasterUser, MissingMasterUserIssue);
    var i5 := Emit(HealthFailed(st.healthLines), ConnectionTestIssue);
    var front := Emit(obs.rest == PartialSuccess, RestApiPartialIssue) + Emit(obs.xmlrpc == AvailableButError, XmlrpcErrorIssue) +
      Emit(!st.hasBlogId, MissingBlogIdIssue) + i4;
    assert InLadderOrder(front) && RanksBetween(front, 0, 3) by {
      EmitRanked(!st.hasMasterUser, MissingMasterUserIssue, 3);
      EmitRun(obs.rest == PartialSuccess, RestApiPartialIssue, obs.xmlrpc == AvailableButError, XmlrpcErrorIssue,
        !st.hasBlogId, MissingBlogIdIssue, i4, 0, 1, 2, 3);
    }
    assert InLadderOrder(i5) && RanksBetween(i5, 3, 4) by {
      EmitRanked(HealthFailed(st.healthLines), ConnectionTestIssue, 4);
      Widen(i5, 4, 4, 3, 4);
    }
    OrderedAppend(front, i5, 0, 3, 4);
  }

  /** The notices about the site come in the order of the ladder: staging, development mode, debug mode, version. */
  lemma SiteNoticesOrdered(st: SiteState)
    ensures InLadderOrder(SiteNotices(st)) && RanksBetween(SiteNotices(st), 1, 4)
  {
    VersionNoticesRanked(st.jetpackVersion, st.versionOutdated);
    EmitRun(st.stagingSite, StagingSiteNotice, st.developmentMode, DevelopmentModeNotice,
      st.debugMode, DebugModeNotice, VersionNotices(st.jetpackVersion, st.versionOutdated), 1, 2, 3, 4);
  }

  /**
   The notices of a connected site come in the order of the ladder: the
   environment lines, then the notices about the site.
   */
  lemma NoticeStagesOrdered(st: SiteState, obs: Observations)
    ensures InLadderOrder(NoticeStages(st, obs)) && RanksBetween(NoticeStages(st, obs), 0, 4)
  {
    var env := ParseEnvironmentLines(obs.environmentLines);
    SiteNoticesOrdered(st);
    EnvironmentRanked(env);
    OrderedAppend(env, SiteNotices(st), 0, 0, 4);
  }

  /** The stages of each bucket come in the order of the ladder. */
  lemma StagesOrdered(st: SiteState, obs: Observations, sev: Severity)
    ensures InLadderOrder(Stages(st, obs).Of(Home(sev))) && RanksBetween(Stages(st, obs).Of(Home(sev)), 0, 4)
  {
    match sev
    case Critical =>
      FailureStagesOrdered(st, obs);
      Widen(FailureStages(st, obs), 0, 3, 0, 4);
    case Warning => IssueStagesOrdered(st, obs);
    case Notice => NoticeStagesOrdered(st, obs);
  }

  /**
   Every bucket comes in the order of the ladder: its stages in source
   order, then its plugin conflicts.
   */
  lemma BucketsInLadderOrder(st: SiteState, obs: Observations, sev: Severity)
    ensures InLadderOrder(CategorizeWith(st, obs).Of(Home(sev)))
  {
    if Reached(st) {
      ConnectedBucket(st, obs, sev);
      StagesOrdered(st, obs, sev);
      ConflictsRanked(obs.conflicts, sev);
      OrderedAppend(Stages(st, obs).Of(Home(sev)), ConflictFindings(obs.conflicts, sev), 0, 4, 5);
    }
  }

  lemma ConflictsRanked(cs: seq<Conflict>, sev: Severity)
    ensures InLadderOrder(ConflictFindings(cs, sev)) && RanksBetween(ConflictFindings(cs, sev), 4, 5)
  {
  }

  /**
   Past the early exits, the first failure is the first check of the ladder
   that fails, and the critical conflicts only when no check fails. The
   summary's description opens with this finding.
   */
  lemma FirstFailure(st: SiteState, obs: Observations)
    requires Reached(st)
    ensures var f := CategorizeWith(st, obs).failures;
      !st.blogToken ==> |f| > 0 && f[0] == BlogTokenFailure
    ensures var f := CategorizeWith(st, obs).failures;
      st.blogToken && !st.userToken ==> |f| > 0 && f[0] == UserTokenFailure
    ensures var f := CategorizeWith(st, obs).failures;
      st.blogToken && st.userToken && obs.rest == RestFailed ==> |f| > 0 && f[0] == RestApiFailure
    ensures var f := CategorizeWith(st, obs).failures;
      st.blogToken && st.userToken && obs.rest != RestFailed && XmlrpcBroken(obs.xmlrpc) ==> |f| > 0 && f[0] == XmlrpcFailure
    ensures var f := CategorizeWith(st, obs).failures;
      st.blogToken && st.userToken && obs.rest != RestFailed && !XmlrpcBroken(obs.xmlrpc) ==>
        f == ConflictFindings(obs.conflicts, Critical)
  {
    ConnectedBucket(st, obs, Critical);
  }

  /**
   Past the early exits, the first issue is the first check of the ladder
   that reports a degradation, and the warning-level conflicts only when no
   check does. The summary's description opens with this finding.
   */
  lemma FirstIssue(st: SiteState, obs: Observations)
    requires Reached(st)
    ensures var f := CategorizeWith(st, obs).issues;
      obs.rest == PartialSuccess ==> |f| > 0 && f[0] == RestApiPartialIssue
    ensures var f := CategorizeWith(st, obs).issues;
      obs.rest != PartialSuccess && obs.xmlrpc == AvailableButError ==> |f| > 0 && f[0] == XmlrpcErrorIssue
    ensures var f := CategorizeWith(st, obs).issues;
      obs.rest != PartialSuccess && obs.xmlrpc != AvailableButError && !st.hasBlogId ==>
        |f| > 0 && f[0] == MissingBlogIdIssue
    ensures var f := CategorizeWith(st, obs).issues;
      obs.rest != PartialSuccess && obs.xmlrpc != AvailableButError && st.hasBlogId && !st.hasMasterUser ==>
        |f| > 0 && f[0] == MissingMasterUserIssue
    ensures var f := CategorizeWith(st, obs).issues;
      (obs.rest != PartialSuccess && obs.xmlrpc != AvailableButError && st.hasBlogId && st.hasMasterUser &&
       HealthFailed(st.healthLines)) ==> |f| > 0 && f[0] == ConnectionTestIssue
    ensures var f := CategorizeWith(st, obs).issues;
      (obs.rest != PartialSuccess && obs.xmlrpc != AvailableButError && st.hasBlogId && st.hasMasterUser &&
       !HealthFailed(st.healthLines)) ==> f == ConflictFindings(obs.conflicts, Warning)
  {
    ConnectedBucket(st, obs, Warning);
  }
}

=== FILE: probes.dfy ===
/**
 The two self-test probes of the API availability tester, with the HTTP
 round trip replaced by its outcome: a transport error, or a status code,
 reason phrase and body. Each classifier maps that outcome to a status label
 and a detail string through the same ordered chain of tests as the source.
 */
module Probes {
  import opened Strings
  import opened Optional

  /** What `wp_remote_get` / `wp_remote_post` handed back. */
  datatype HttpOutcome =
    | TransportError(error: string)
    | Response(code: nat, reason: string, body: string)

  datatype RestStatus = RestSuccess | PartialSuccess | RestFailed {
    function Label(): string {
      match this
      case RestSuccess => "Success"
      case PartialSuccess => "Partial Success"
      case RestFailed => "Failed"
    }
  }

  datatype XmlrpcStatus = XmlrpcSuccess | AvailableButError | Blocked | Available | XmlrpcFailed | Disabled {
    function Label(): string {
      match this
      case XmlrpcSuccess => "Success"
      case AvailableButError => "Available but Error"
      case Blocked => "Blocked"
      case Available => "Available"
      case XmlrpcFailed => "Failed"
      case Disabled => "Disabled"
    }
  }

  datatype RestResult = RestResult(status: RestStatus, details: string)
  datatype XmlrpcResult = XmlrpcResult(status: XmlrpcStatus, details: string)

  const HelloMarker := "Hello!"
  const EnvelopeMarker := "methodResponse"
  const FaultMarker := "faultCode"
  const PostOnlyMarker := "XML-RPC server accepts POST requests only"

  /** The detail line of a non-success HTTP answer: "HTTP <code> - <reason>". */
  function HttpDetails(code: nat, reason: string): string {
    "HTTP " + NatToString(code) + " - " + reason
  }

  /**
   `test_rest_api`. JSON decoding is not modelled: `decoded` is the number of
   elements when the body decodes to a PHP array (a JSON array or object),
   and None when it does not decode or decodes to a scalar.
   */
  function ClassifyRest(resp: HttpOutcome, decoded: Option<nat>): (r: RestResult)
    ensures r.status == RestSuccess <==> resp.Response? && resp.code == 200 && decoded.Some?
    ensures r.status == PartialSuccess <==> resp.Response? && resp.code == 200 && decoded.None?
    ensures r.status == RestFailed <==> resp.TransportError? || resp.code != 200
    ensures resp.TransportError? ==> r.details == "Error: " + resp.error
    ensures resp.Response? && resp.code != 200 ==> r.details == HttpDetails(resp.code, resp.reason)
    ensures r.status == RestSuccess ==>
      r.details == "HTTP 200, valid JSON response with " + NatToString(decoded.value) + " post types"
  {
    match resp
    case TransportError(e) => RestResult(RestFailed, "Error: " + e)
    case Response(code, reason, _) =>
      if code == 200 then
        match decoded
        case Some(n) => RestResult(RestSuccess, "HTTP 200, valid JSON response with " + NatToString(n) + " post types")
        case None => RestResult(PartialSuccess, "HTTP 200 but invalid JSON response")
      else
        RestResult(RestFailed, HttpDetails(code, reason))
  }

  /** The four substring tests `test_xmlrpc` makes on a response body. */
  datatype BodyMarkers = BodyMarkers(hello: bool, envelope: bool, fault: bool, postOnly: bool)

  function ReadMarkers(body: string): BodyMarkers {
    BodyMarkers(Contains(body, HelloMarker), Contains(body, EnvelopeMarker),
                Contains(body, FaultMarker), Contains(body, PostOnlyMarker))
  }

  /**
   The ordered chain of tests `test_xmlrpc` applies to an HTTP answer: the
   greeting, then the response envelope with or without a fault, then 405,
   then the POST-only message, and failure otherwise. The body is seen only
   through its markers.
   */
  function ClassifyResponse(code: nat, reason: string, m: BodyMarkers): (r: XmlrpcResult)
    ensures r.status != Disabled
    ensures r.status == XmlrpcSuccess <==> code == 200 && (m.hello || (m.envelope && !m.fault))
    ensures r.status == AvailableButError <==> code == 200 && !m.hello && m.envelope && m.fault
    ensures r.status == Blocked <==> code == 405
    ensures r.status == Available <==> code != 405 && m.postOnly && !(code == 200 && (m.hello || m.envelope))
    ensures r.status == XmlrpcFailed <==> code != 405 && !m.postOnly && !(code == 200 && (m.hello || m.envelope))
    ensures r.status == XmlrpcFailed ==> r.details == HttpDetails(code, reason)
  {
    if code == 200 && m.hello then
      XmlrpcResult(XmlrpcSuccess, "HTTP 200, demo.sayHello returned \"Hello!\"")
    else if code == 200 && m.envelope then
      if m.fault then
        XmlrpcResult(AvailableButError, "HTTP 200, XML-RPC endpoint responding but demo.sayHello may not be available")
      else
        XmlrpcResult(XmlrpcSuccess, "HTTP 200, valid XML-RPC response received")
    else if code == 405 then
      XmlrpcResult(Blocked, "HTTP 405 Method Not Allowed - XML-RPC may be disabled by server")
    else if m.postOnly then
      XmlrpcResult(Available, "XML-RPC endpoint is responding (POST-only message received)")
    else
      XmlrpcResult(XmlrpcFailed, HttpDetails(code, reason))
  }

  /**
   `test_xmlrpc`. `enabled` is the `xmlrpc_enabled` filter together with the
   presence of xmlrpc.php; when it is false no request is made and `resp` is
   not consulted.
   */
  function ClassifyXmlrpc(enabled: bool, resp: HttpOutcome): (r: XmlrpcResult)
    ensures r.status == Disabled <==> !enabled
    ensures enabled && resp.TransportError? ==> r == XmlrpcResult(XmlrpcFailed, "Error: " + resp.error)
    ensures enabled && resp.Response? ==> r == ClassifyResponse(resp.code, resp.reason, ReadMarkers(resp.body))
  {
    if !enabled then
      XmlrpcResult(Disabled, "XML-RPC is disabled via WordPress settings or filter")
    else
      match resp
      case TransportError(e) => XmlrpcResult(XmlrpcFailed, "Error: " + e)
      case Response(code, reason, body) => ClassifyResponse(code, reason, ReadMarkers(body))
  }

  /** A disabled endpoint is reported the same whatever the network would have said. */
  lemma DisabledIgnoresResponse(a: HttpOutcome, b: HttpOutcome)
    ensures ClassifyXmlrpc(false, a) == ClassifyXmlrpc(false, b)
  {
  }

  /** The greeting wins over a fault marker in the same 200 body. */
  lemma GreetingBeatsFault(reason: string, body: string)
    requires Contains(body, HelloMarker) && Contains(body, FaultMarker)
    ensures ClassifyXmlrpc(true, Response(200, reason, body)).status == XmlrpcSuccess
  {
  }

  /** A 405 is Blocked whatever the body says, even with the POST-only message in it. */
  lemma MethodNotAllowedIsBlocked(reason: string, body: string)
    ensures ClassifyXmlrpc(true, Response(405, reason, body)).status == Blocked
  {
  }

  /** The labels are the distinct strings the ladder compares against. */
  lemma LabelsDistinct()
    ensures forall s, t: RestStatus :: s != t ==> s.Label() != t.Label()
    ensures forall s, t: XmlrpcStatus :: s != t ==> s.Label() != t.Label()
  {
  }
}

=== FILE: strings.dfy ===
/**
 The few PHP string primitives the diagnostics rely on, over `string` (a
 sequence of Unicode scalar values): `strpos(...) !== false` (Contains),
 `strpos(...) === 0` (IsPrefix), `str_replace($p, '', $s)` (RemoveAll),
 ASCII `strtolower`, and the `%d` rendering of a natural number.
 */
module Strings {

  predicate IsPrefix(p: string, s: string) {
    |p| <= |s| && s[..|p|] == p
  }

  predicate IsSuffix(p: string, s: string) {
    |p| <= |s| && s[|s| - |p|..] == p
  }

  /** `p` occurs in `s` starting at index `i`. */
  predicate OccursAt(p: string, s: string, i: int) {
    0 <= i && i + |p| <= |s| && s[i..i + |p|] == p
  }

  /** `strpos($s, $p) !== false`: `p` occurs somewhere in `s`. */
  predicate Contains(s: string, p: string) {
    exists i | 0 <= i <= |s| - |p| :: OccursAt(p, s, i)
  }

  /** The search step `strpos` takes: `p` is at the front of `s`, or further on. */
  lemma {:induction false} ContainsStep(s: string, p: string)
    requires |s| > 0
    ensures Contains(s, p) <==> IsPrefix(p, s) || Contains(s[1..], p)
  {
    if IsPrefix(p, s) {
      assert OccursAt(p, s, 0);
    }
    forall i | OccursAt(p, s, i) && i > 0
      ensures OccursAt(p, s[1..], i - 1)
    {
      assert s[1..][i - 1..i - 1 + |p|] == s[i..i + |p|];
    }
    forall i | OccursAt(p, s[1..], i)
      ensures OccursAt(p, s, i + 1)
    {
      assert s[1..][i..i + |p|] == s[i + 1..i + 1 + |p|];
    }
    if Contains(s, p) && !IsPrefix(p, s) {
      var i :| 0 <= i <= |s| - |p| && OccursAt(p, s, i);
      assert i != 0;
      assert OccursAt(p, s[1..], i - 1);
    }
  }

  /** A character of `p` that never appears in `s` rules out any occurrence of `p`. */
  lemma MissingCharMeansAbsent(s: string, p: string, c: char)
    requires c in p && c !in s
    ensures !Contains(s, p)
  {
    var j :| 0 <= j < |p| && p[j] == c;
    forall i | 0 <= i && i + |p| <= |s|
      ensures !OccursAt(p, s, i)
    {
      assert s[i..i + |p|][j] == s[i + j];
    }
  }

  /**
   `str_replace($p, '', $s)`: one left-to-right pass that deletes every
   non-overlapping occurrence of `p`; the result is not scanned again.
   An empty `p` leaves `s` unchanged.
   */
  function RemoveAll(s: string, p: string): (r: string)
    ensures |r| <= |s|
    ensures !Contains(s, p) ==> r == s
    decreases |s|
  {
    if |p| == 0 || |s| == 0 then s
    else if IsPrefix(p, s) then assert OccursAt(p, s, 0); RemoveAll(s[|p|..], p)
    else ContainsStep(s, p); [s[0]] + RemoveAll(s[1..], p)
  }

  /**
   The pass skips what comes before the first occurrence of `p`, deletes
   that occurrence and carries on behind it: `a` is kept as it is, and the
   rest is handled the same way.
   */
  lemma {:induction false} RemoveAllFirstOccurrence(a: string, p: string, b: string)
    requires |p| > 0 && !Contains(a + p[..|p| - 1], p)
    ensures RemoveAll(a + p + b, p) == a + RemoveAll(b, p)
    decreases |a|
  {
    var s := a + p + b;
    if |a| == 0 {
      assert s == p + b;
      assert IsPrefix(p, s);
      assert s[|p|..] == b;
    } else {
      assert !IsPrefix(p, s) by { NotAtFront(a, p, b); }
      assert RemoveAll(a[1..] + p + b, p) == a[1..] + RemoveAll(b, p) by {
        ContainsTail(a, p);
        RemoveAllFirstOccurrence(a[1..], p, b);
      }
      assert s[0] == a[0] && s[1..] == a[1..] + p + b;
      RemoveAllKeeps(s, p);
      ConsAppend(a, RemoveAll(b, p));
    }
  }

  lemma ConsAppend(a: string, x: string)
    requires |a| > 0
    ensures [a[0]] + (a[1..] + x) == a + x
  {
    assert a == [a[0]] + a[1..];
  }

  /** A line that does not open with `p` keeps its first character. */
  lemma RemoveAllKeeps(s: string, p: string)
    requires |p| > 0 && |s| > 0 && !IsPrefix(p, s)
    ensures RemoveAll(s, p) == [s[0]] + RemoveAll(s[1..], p)
  {
  }

  /** With no occurrence of `p` in `a + p[..|p| - 1]`, a non-empty `a` keeps `p` off the front. */
  lemma NotAtFront(a: string, p: string, b: string)
    requires |a| > 0 && |p| > 0 && !Contains(a + p[..|p| - 1], p)
    ensures !IsPrefix(p, a + p + b)
  {
    var w := a + p[..|p| - 1];
    if IsPrefix(p, a + p + b) {
      assert w[..|p|] == (a + p + b)[..|p|];
      assert OccursAt(p, w, 0);
    }
  }

  /** Dropping the first character of `a` keeps `a + p[..|p| - 1]` free of `p`. */
  lemma ContainsTail(a: string, p: string)
    requires |a| > 0 && |p| > 0 && !Contains(a + p[..|p| - 1], p)
    ensures !Contains(a[1..] + p[..|p| - 1], p)
  {
    var w := a + p[..|p| - 1];
    ContainsStep(w, p);
    assert w[1..] == a[1..] + p[..|p| - 1];
  }

  /** A line `p + t` whose tail no longer mentions `p` loses exactly its leading `p`. */
  lemma StripLeading(p: string, t: string)
    requires |p| > 0 && !Contains(t, p)
    ensures RemoveAll(p + t, p) == t
  {
    assert IsPrefix(p, p + t);
    assert (p + t)[|p|..] == t;
  }

  /** ASCII `strtolower` on one character. */
  function LowerChar(c: char): char {
    if 'A' <= c <= 'Z' then (c as int + 32) as char else c
  }

  predicate IsUpperAscii(c: char) {
    'A' <= c <= 'Z'
  }

  /** ASCII `strtolower`: capitals A-Z become a-z, every other character is kept. */
  function ToLowerAscii(s: string): (r: string)
    ensures |r| == |s|
    ensures forall i :: 0 <= i < |s| && !IsUpperAscii(s[i]) ==> r[i] == s[i]
    ensures forall i :: 0 <= i < |s| && IsUpperAscii(s[i]) ==> r[i] as int == s[i] as int + 32
    ensures forall i :: 0 <= i < |r| ==> !IsUpperAscii(r[i])
  {
    seq(|s|, i requires 0 <= i < |s| => LowerChar(s[i]))
  }

  predicate IsDigit(c: char) {
    '0' <= c <= '9'
  }

  predicate AllDigits(s: string) {
    forall i :: 0 <= i < |s| ==> IsDigit(s[i])
  }

  function DigitChar(d: nat): (c: char)
    requires d < 10
    ensures IsDigit(c) && c as int - '0' as int == d
  {
    ('0' as int + d) as char
  }

  /** `sprintf('%d', $n)` for a non-negative `n`: decimal, no leading zeros. */
  function NatToString(n: nat): (r: string)
    ensures |r| > 0 && AllDigits(r)
    ensures |r| > 1 ==> r[0] != '0'
    decreases n
  {
    if n < 10 then [DigitChar(n)] else NatToString(n / 10) + [DigitChar(n % 10)]
  }

  /** The decimal value of a digit string, the partner of NatToString. */
  ghost function ParseNat(s: string): nat
    requires AllDigits(s)
    decreases |s|
  {
    if |s| == 0 then 0
    else ParseNat(s[..|s| - 1]) * 10 + (s[|s| - 1] as int - '0' as int)
  }

  /** Reading back a rendered count gives the count. */
  lemma {:induction false} NatToStringRoundTrip(n: nat)
    ensures ParseNat(NatToString(n)) == n
    decreases n
  {
    if n >= 10 {
      var s := NatToString(n);
      assert s[..|s| - 1] == NatToString(n / 10);
      NatToStringRoundTrip(n / 10);
    }
  }

  /** Different counts are rendered differently. */
  lemma NatToStringInjective(m: nat, n: nat)
    requires NatToString(m) == NatToString(n)
    ensures m == n
  {
    NatToStringRoundTrip(m);
    NatToStringRoundTrip(n);
  }
}

=== FILE: summary.dfy ===
/**
 The status summary (`get_jetpack_status_summary`): one level picked from
 the buckets by strict priority, a headline and a description. The
 description is the first finding of the deciding bucket, followed by a
 count of the others when there are any; the success headline counts the
 notices. Plural forms are the English ones: singular for exactly one.
 */
module Summary {
  import opened Strings
  import opened Findings
  import opened Ladder

  datatype Level = FailureLevel | IssueLevel | SuccessLevel {
    /** The `level` string of the summary. */
    function Label(): string {
      match this
      case FailureLevel => "failure"
      case IssueLevel => "issue"
      case SuccessLevel => "success"
    }
  }

  /** The summary together with the buckets it was computed from. */
  datatype StatusSummary = StatusSummary(level: Level, message: string, description: string, buckets: Buckets)

  const CriticalHeadline := "Jetpack connection has critical issues"
  const NotConnectedHeadline := "Jetpack is not connected"
  const IssueHeadline := "Jetpack is active, but not fully connected"
  const ConnectedHeadline := "Jetpack is connected!"
  const NotedDescription := "Your site is successfully connected to WordPress.com and working properly."
  const CleanDescription := "Your site is successfully connected to WordPress.com and all systems are working properly."

  /**
   The `_n`/`sprintf` pair of the summary: "(<n> <noun><tail>)", with the
   noun in the plural, an added "s", unless `n` is exactly one.
   */
  function CountPhrase(n: nat, noun: string, tail: string): (r: string)
    ensures IsPrefix("(" + NatToString(n) + " " + noun, r)
    ensures n != 1 ==> IsPrefix("(" + NatToString(n) + " " + noun + "s", r)
    ensures IsSuffix(tail + ")", r)
    ensures |r| == |NatToString(n)| + |noun| + |tail| + 3 <==> n == 1
    ensures |r| == |NatToString(n)| + |noun| + |tail| + 4 <==> n != 1
  {
    var plural := if n == 1 then "" else "s";
    var r := "(" + NatToString(n) + " " + noun + plural + tail + ")";
    assert r[..|NatToString(n)| + |noun| + 2] == "(" + NatToString(n) + " " + noun;
    assert r[..|NatToString(n)| + |noun| + 2 + |plural|] == "(" + NatToString(n) + " " + noun + plural;
    r
  }

  /**
   The count that follows the first finding's message: nothing when no
   other finding is left, otherwise a space and the phrase. The noun is
   "additional critical issue" or "additional issue".
   */
  function AdditionalSuffix(additional: nat, noun: string): (r: string)
    ensures r == "" <==> additional == 0
    ensures additional > 0 ==> r == " " + CountPhrase(additional, noun, "")
    ensures additional > 0 ==> IsPrefix(" (" + NatToString(additional) + " " + noun, r) && IsSuffix(")", r)
    ensures additional > 1 ==> IsPrefix(" (" + NatToString(additional) + " " + noun + "s", r)
    ensures additional == 1 ==> |r| == |noun| + 5
  {
    if additional == 0 then ""
    else
      var phrase := CountPhrase(additional, noun, "");
      PrefixBehind(" ", "(" + NatToString(additional) + " " + noun, phrase);
      PluralBehind(additional, noun);
      SuffixBehind(" ", ")", phrase);
      " " + phrase
  }

  lemma PrefixBehind(c: string, p: string, s: string)
    requires IsPrefix(p, s)
    ensures IsPrefix(c + p, c + s)
  {
    assert (c + s)[..|c| + |p|] == c + s[..|p|];
  }

  lemma PluralBehind(n: nat, noun: string)
    ensures n > 1 ==> IsPrefix(" (" + NatToString(n) + " " + noun + "s", " " + CountPhrase(n, noun, ""))
  {
    if n > 1 {
      PrefixBehind(" ", "(" + NatToString(n) + " " + noun + "s", CountPhrase(n, noun, ""));
    }
  }

  lemma SuffixBehind(c: string, p: string, s: string)
    requires IsSuffix(p, s)
    ensures IsSuffix(p, c + s)
  {
    assert (c + s)[|c + s| - |p|..] == s[|s| - |p|..];
  }

  /** The suffix tells how many other findings there are. */
  lemma AdditionalSuffixInjective(m: nat, n: nat, noun: string)
    requires AdditionalSuffix(m, noun) == AdditionalSuffix(n, noun)
    ensures m == n
  {
    if m > 0 && n > 0 {
      var pm, pn := CountPhrase(m, noun, ""), CountPhrase(n, noun, "");
      assert (" " + pm)[1..] == pm;
      assert (" " + pn)[1..] == pn;
      CountPhraseInjective(m, n, noun, "");
    }
  }

  /**
   The description of a failure or issue summary: the message of the
   bucket's first finding, then how many `additional` findings follow it.
   */
  function Describe(message: string, additional: nat, noun: string): (r: string)
    ensures IsPrefix(message, r)
    ensures r == message <==> additional == 0
    ensures additional > 0 ==> r == message + " " + CountPhrase(additional, noun, "")
    ensures additional > 0 ==> IsPrefix(message + " (" + NatToString(additional) + " " + noun, r) && IsSuffix(")", r)
    ensures additional > 1 ==> IsPrefix(message + " (" + NatToString(additional) + " " + noun + "s", r)
    ensures additional == 1 ==> |r| == |message| + |noun| + 5
  {
    DescribeParts(message, additional, noun);
    message + AdditionalSuffix(additional, noun)
  }

  lemma DescribeParts(message: string, additional: nat, noun: string)
    ensures var r := message + AdditionalSuffix(additional, noun);
      IsPrefix(message, r) &&
      (additional > 0 ==> IsPrefix(message + " (" + NatToString(additional) + " " + noun, r) && IsSuffix(")", r)) &&
      (additional > 1 ==> IsPrefix(message + " (" + NatToString(additional) + " " + noun + "s", r))
  {
    var suffix := AdditionalSuffix(additional, noun);
    assert (message + suffix)[..|message|] == message;
    if additional > 0 {
      PrefixBehind(message, " (" + NatToString(additional) + " " + noun, suffix);
      SuffixBehind(message, ")", suffix);
    }
    if additional > 1 {
      PrefixBehind(message, " (" + NatToString(additional) + " " + noun + "s", suffix);
    }
  }

  /** `get_jetpack_status_summary`. `connectedNow` is the connection status read again by the failure branch. */
  function Summarize(b: Buckets, connectedNow: bool): (r: StatusSummary)
    ensures r.buckets == b
    ensures r.level == FailureLevel <==> b.failures != []
    ensures r.level == IssueLevel <==> b.failures == [] && b.issues != []
    ensures r.level == SuccessLevel <==> b.failures == [] && b.issues == []
    ensures r.level == FailureLevel ==> IsPrefix(b.failures[0].message, r.description)
    ensures r.level == FailureLevel ==>
      r.description == Describe(b.failures[0].message, |b.failures| - 1, "additional critical issue")
    ensures r.level == FailureLevel ==> r.message == (if connectedNow then CriticalHeadline else NotConnectedHeadline)
    ensures r.level == IssueLevel ==> IsPrefix(b.issues[0].message, r.description) && r.message == IssueHeadline
    ensures r.level == IssueLevel ==>
      r.description == Describe(b.issues[0].message, |b.issues| - 1, "additional issue")
    ensures r.level == SuccessLevel ==> (r.message == ConnectedHeadline <==> b.notices == [])
    ensures r.level == SuccessLevel ==> IsPrefix(ConnectedHeadline, r.message)
    ensures r.level == SuccessLevel && b.notices != [] ==>
      r.message == ConnectedHeadline + " " + CountPhrase(|b.notices|, "thing", " to note") && r.description == NotedDescription
    ensures r.level == SuccessLevel && b.notices == [] ==> r.description == CleanDescription
  {
    if b.failures != [] then
      var message := if connectedNow then CriticalHeadline else NotConnectedHeadline;
      StatusSummary(FailureLevel, message, Describe(b.failures[0].message, |b.failures| - 1, "additional critical issue"), b)
    else if b.issues != [] then
      StatusSummary(IssueLevel, IssueHeadline, Describe(b.issues[0].message, |b.issues| - 1, "additional issue"), b)
    else if b.notices != [] then
      var message := ConnectedHeadline + " " + CountPhrase(|b.notices|, "thing", " to note");
      assert message[..|ConnectedHeadline|] == ConnectedHeadline;
      StatusSummary(SuccessLevel, message, NotedDescription, b)
    else
      StatusSummary(SuccessLevel, ConnectedHeadline, CleanDescription, b)
  }

  /** Notices never move the level, whatever they are. */
  lemma NoticesDoNotAffectLevel(b: Buckets, notices: seq<Finding>, connectedNow: bool)
    ensures Summarize(b.(notices := notices), connectedNow).level == Summarize(b, connectedNow).level
  {
  }

  /** The count can be read back from its phrase. */
  lemma CountPhraseInjective(m: nat, n: nat, noun: string, tail: string)
    requires CountPhrase(m, noun, tail) == CountPhrase(n, noun, tail)
    ensures m == n
  {
    var dm, dn := NatToString(m), NatToString(n);
    var pm := if m == 1 then "" else "s";
    var pn := if n == 1 then "" else "s";
    var xm, xn := noun + pm + tail + ")", noun + pn + tail + ")";
    assert "(" + dm + " " + noun + pm + tail + ")" == "(" + (dm + " " + xm);
    assert "(" + dn + " " + noun + pn + tail + ")" == "(" + (dn + " " + xn);
    assert dm + " " + xm == dn + " " + xn by {
      assert ("(" + (dm + " " + xm))[1..] == dm + " " + xm;
      assert ("(" + (dn + " " + xn))[1..] == dn + " " + xn;
    }
    if |dm| < |dn| {
      assert false;
    } else if |dn| < |dm| {
      assert false;
    } else {
      assert (dm + " " + xm)[..|dm|] == dm;
      assert (dn + " " + xn)[..|dn|] == dn;
      NatToStringInjective(m, n);
    }
  }

  /** Two descriptions that open with the same message tell apart how many findings follow it. */
  lemma DescribeDeterminesCount(message: string, m: nat, n: nat, noun: string)
    requires Describe(message, m, noun) == Describe(message, n, noun)
    ensures m == n
  {
    AppendCancel(message, AdditionalSuffix(m, noun), AdditionalSuffix(n, noun));
    AdditionalSuffixInjective(m, n, noun);
  }

  lemma AppendCancel(m: string, x: string, y: string)
    requires m + x == m + y
    ensures x == y
  {
    assert x == (m + x)[|m|..];
  }

  /** The success headline tells how many notices there are. */
  lemma HeadlineDeterminesNotices(b: Buckets, c: Buckets, connectedNow: bool)
    requires b.failures == [] && b.issues == [] && c.failures == [] && c.issues == []
    requires Summarize(b, connectedNow).message == Summarize(c, connectedNow).message
    ensures |b.notices| == |c.notices|
  {
    if b.notices != [] && c.notices != [] {
      var pb := CountPhrase(|b.notices|, "thing", " to note");
      var pc := CountPhrase(|c.notices|, "thing", " to note");
      var h := ConnectedHeadline + " ";
      assert (h + pb)[|h|..] == pb;
      assert (h + pc)[|h|..] == pc;
      CountPhraseInjective(|b.notices|, |c.notices|, "thing", " to note");
    }
  }

  /** Before the connection is established the summary is a failure that names only the early exit. */
  lemma EarlyExitSummary(st: SiteState, obs: Observations, connectedNow: bool)
    requires !Reached(st)
    ensures Summarize(CategorizeWith(st, obs), connectedNow).level == FailureLevel
    ensures Summarize(CategorizeWith(st, obs), connectedNow).description == CategorizeWith(st, obs).failures[0].message
  {
  }

  /** The summary is a success exactly when the ladder is reached and no check behind a failure or issue fires. */
  lemma SuccessIff(st: SiteState, obs: Observations, connectedNow: bool)
    ensures Summarize(CategorizeWith(st, obs), connectedNow).level == SuccessLevel <==>
      Reached(st) && NoFailureRaised(st, obs) && NoIssueRaised(st, obs)
  {
    NoFailuresIff(st, obs);
    if Reached(st) {
      NoIssuesIff(st, obs);
    }
  }
}
